=== FILE: README.md ===
# Steam API gateway: a Dafny model

This project models the core of a gateway that sits in front of the Steam
Web API. It covers:

- **API key middleware** (`ApiKeyGate`, `RateLimiter`). It skips
  validation for the status, health and Swagger paths. It reads the key
  from a header, falling back to a query parameter. It checks that key
  against the configured list. It applies a sliding-window limit per key,
  with one window for the minute and one for the hour. It stores a masked
  form of the key for auditing.
- **Upstream URL builders** (`SteamUrls`, with `Query`, `PercentEncoding`
  and `Text`).
  - Versioned Web API URLs take the form
    `<base>/<interface>/<method>/<version>/?key=…&format=json&…`.
  - Store URLs take the form `<store base>/<endpoint>?…`.
  - Keys and values are escaped as `Uri.EscapeDataString` escapes them.
- **Typed client** (`ClientUrls`): the client's `BuildUrl` and the query
  dictionary each client method builds.
- **Store JSON converters** (`StoreConverters`, `Json`).
  - The tolerant `StoreRequirements` reader accepts an object, an empty
    array or null.
  - The `RequiredAge` reader accepts a string or a number.
- **Controllers** (`SteamApps`, `SteamUser`, `Player`, `SteamNews`,
  `SteamUserStats`, `SteamStore`, with `Requests` and `Numbers`).
  - Each action validates its arguments in the order the controller does.
  - A failed check gives `BadRequest` with the controller's own message.
  - A call that throws while it is being built gives the controller's 500
    answer. The only such case is the friend list with a null relationship.
  - Otherwise the action produces the upstream call it would forward: the
    interface, method, version and parameter dictionary, or the store
    endpoint and its dictionary.
  - `Numbers` models `int.TryParse` and `ulong.TryParse`, whose exact
    behaviour decides which inputs pass.

Every operation is a pure function.

- The limiter store is a value passed in and returned.
- The clock is an integer tick count (`DateTime.Ticks`) passed as `now`.
- A null string or dictionary is `None`. Where the source refuses null and
  empty alike with `IsNullOrEmpty` before any other use, null is modelled
  as `""`. A string the source passes on after that test is an `Option`
  (the friend-list `relationship`, the news `feeds` and `tags`, the
  achievements `language`).
- A parameter dictionary is a sequence of key/value pairs with distinct
  keys, in insertion order. That is the order in which `Dictionary`
  enumerates entries when nothing is removed.
- `Query.Parse` is the partner of every URL builder. Each builder is proved
  to produce a query that `Query.Parse` reads back as exactly the intended
  parameters.

A header that is present shadows the query parameter even when its first
value is empty (`ApiKeyMiddleware.cs:79-94`); `ApiKeyGate.HeaderShadowsQuery`
states the consequence.

## Model

| member | source | states |
|---|---|---|
| ApiKeyGate.GetApiKey | src/SteamApi/Middleware/ApiKeyMiddleware.cs:79-94 | the header's first value whenever the header is present; the query parameter's first value only when there is no header; null when neither is present |
| ApiKeyGate.Mask | src/SteamApi/Middleware/ApiKeyMiddleware.cs:128-134 | `***` for keys of at most eight characters; otherwise a string of length 11 made of the key's first four characters, `...` and its last four |
| ApiKeyGate.Invoke | src/SteamApi/Middleware/ApiKeyMiddleware.cs:21-68 | skipped paths, and every path when no key is required, pass with the limiter state untouched; an authorised request carries the mask of a configured valid key; a 401 leaves the limiter state unchanged |
| ApiKeyGate.KeyChecksComeFirst | src/SteamApi/Middleware/ApiKeyMiddleware.cs:39-53 | once validation applies, a missing key is 401 "API key is required" and an unlisted key is 401 "Invalid API key", both before any rate check and with the limiter state unchanged |
| ApiKeyGate.ValidKeyWithoutLimit | src/SteamApi/Middleware/ApiKeyMiddleware.cs:56-65 | a valid key with rate limiting disabled is authorised with its mask, and the limiter state is left exactly as it was |
| ApiKeyGate.ValidKeyWithLimit | src/SteamApi/Middleware/ApiKeyMiddleware.cs:56-65 | with rate limiting enabled, a valid key is authorised exactly when `CheckRateLimit` admits it and gets 429 otherwise; the limiter's new state is kept in both cases |
| ApiKeyGate.InvokeKeepsCeilings | src/SteamApi/Middleware/ApiKeyMiddleware.cs:101-126 | if every key is within its ceilings before a request, every key is within them after it, whatever the request |
| ApiKeyGate.HeaderShadowsQuery | src/SteamApi/Middleware/ApiKeyMiddleware.cs:82-85 | a header with no value hides a good query key, so the request is a 401 for a missing key |
| ApiKeyGate.ShouldSkip | src/SteamApi/Middleware/ApiKeyMiddleware.cs:70-77 | a path skips validation exactly when it is not null and starts with `/api/status`, `/health` or `/swagger` up to the case of ASCII letters |
| ApiKeyGate.BypassIgnoresCase | src/SteamApi/Middleware/ApiKeyMiddleware.cs:70-77 | every path skips validation exactly when its lower-cased form does, so `/Health/ready` skips it |
| ApiKeyGate.MaskHidesMiddle | src/SteamApi/Middleware/ApiKeyMiddleware.cs:128-134 | keys longer than eight characters that share their first four and last four characters have the same mask |
| ApiKeyGate.MaskOfEightCharacters | src/SteamApi/Middleware/ApiKeyMiddleware.cs:130-133 | the eight-character key `abc123de` masks to `***` |
| RateLimiter.KeepSince | src/SteamApi/Middleware/ApiKeyMiddleware.cs:142-149 | `RemoveAll(t => t < cutoff)` keeps only entries at or after the cutoff, keeps every value that is, and changes nothing when no entry is older; order and multiplicity are fixed by `KeepSinceSplits` and `KeepSinceOne` |
| RateLimiter.KeepSinceSplits | src/SteamApi/Middleware/ApiKeyMiddleware.cs:144-148 | pruning a concatenation prunes each part and keeps the parts in order, so entries are judged one by one and their order is kept |
| RateLimiter.KeepSinceOne | src/SteamApi/Middleware/ApiKeyMiddleware.cs:144-148 | a single entry survives exactly when it is at or after the cutoff; with `KeepSinceSplits` this fixes the pruned list for every input |
| RateLimiter.Cleanup | src/SteamApi/Middleware/ApiKeyMiddleware.cs:142-149 | the minute list is pruned at `now` minus one minute (600,000,000 ticks) and the hour list at `now` minus one hour |
| RateLimiter.CheckRateLimit | src/SteamApi/Middleware/ApiKeyMiddleware.cs:101-126 | the key's entry is created and pruned; the request is rejected when the pruned minute list or the pruned hour list has reached its ceiling; otherwise `now` is appended to both lists; other keys are untouched |
| RateLimiter.KeepSinceTwice | src/SteamApi/Middleware/ApiKeyMiddleware.cs:144-148 | pruning twice is pruning once with the later cutoff, so pruning is monotonic |
| RateLimiter.KeepSinceAppend | src/SteamApi/Middleware/ApiKeyMiddleware.cs:121-122 | a time appended at or after the cutoff survives pruning, at the end of the list |
| RateLimiter.KeepSinceCounts | src/SteamApi/Middleware/ApiKeyMiddleware.cs:142-149 | the length of a pruned list is the number of entries inside the window |
| RateLimiter.CheckKeepsCeilings | src/SteamApi/Middleware/ApiKeyMiddleware.cs:108-122 | a check never pushes any key past either ceiling |
| RateLimiter.RejectsAtCeiling | src/SteamApi/Middleware/ApiKeyMiddleware.cs:108-124 | for a key within its ceilings, a check rejects exactly when the count inside the minute window or the hour window equals its ceiling |
| RateLimiter.AdmissionCountsOnce | src/SteamApi/Middleware/ApiKeyMiddleware.cs:121-125 | an admitted request adds exactly one entry to each window |
| RateLimiter.OldEntriesDoNotCount | src/SteamApi/Middleware/ApiKeyMiddleware.cs:142-149 | a key whose entries are all more than an hour old is admitted again when both ceilings are positive |
| RateLimiter.KeepSinceNone | src/SteamApi/Middleware/ApiKeyMiddleware.cs:144-148 | a pruned list holds no entry older than the cutoff |
| RateLimiter.ThirdRequestRejected | src/SteamApi/Middleware/ApiKeyMiddleware.cs:112-124 | with a minute ceiling of two, three requests at the same instant are admitted, admitted, rejected |
| SteamUrls.BuildSteamApiUrl | src/SteamApi/Services/SteamApiService.cs:149-169 | the trimmed base, the three path segments and `?`, then a query that reads back as `key`, `format=json` and the caller's parameters in order; the text after `?` is exactly their rendering, `key=…&format=json` followed by the escaped pairs joined with `&` |
| SteamUrls.BuildStoreApiUrl | src/SteamApi/Services/SteamApiService.cs:171-187 | the trimmed store base and endpoint alone when there are no parameters; otherwise `?` and a query that reads back as exactly the caller's parameters and is exactly their rendering |
| SteamUrls.VersionedQueryRenders | src/SteamApi/Services/SteamApiService.cs:154-168 | the query list of the source is the escaped rendering of the fixed key-and-format parameters followed by the caller's |
| SteamUrls.TrimmedBaseHasNoTrailingSlash | src/SteamApi/Services/SteamApiService.cs:152 | the trimmed base never ends in `/` |
| SteamUrls.TrailingSlashesIgnored | src/SteamApi/Services/SteamApiService.cs:152 | any number of trailing slashes on the base gives the same URL |
| SteamUrls.KeyAndFormatComeFirst | src/SteamApi/Services/SteamApiService.cs:154-158 | whatever the caller passes, the versioned query starts with the key and the format flag |
| SteamUrls.UnreservedUrl | src/SteamApi/Services/SteamApiService.cs:149-169 | with unreserved text, a one-parameter call reads `<path>?key=<key>&format=json&k=v` character for character |
| Query.Put | src/SteamApi/Controllers/PlayerController.cs:68 | the indexer assignment adds `k` to the key set; it keeps the length when `k` is present, and otherwise appends `(k, v)` at the end |
| Query.PutLookup | src/SteamApi/Controllers/PlayerController.cs:68 | after `d[k] = v`, looking up `k` gives `v` and looking up any other key gives what it gave before |
| Query.AppendQuery | src/SteamApi/Services/SteamApiService.cs:176-186 | the URL is unchanged for an empty dictionary; otherwise it is followed by `?` and the dictionary's rendering, text that parses back to the dictionary |
| Query.ParseRender | src/SteamApi.Client/SteamApiClient.cs:191 | parsing the `&`-joined escaped pairs gives back the dictionary in order |
| Query.RenderInjective | src/SteamApi.Client/SteamApiClient.cs:191 | different dictionaries render to different query strings |
| Query.RenderEmpty | src/SteamApi.Client/SteamApiClient.cs:189-194 | the rendering is empty exactly when the dictionary is |
| Query.PutIfPresent | src/SteamApi/Controllers/PlayerController.cs:120-123 | `if (count.HasValue) d[k] = …` adds `k` exactly when a value is given and leaves every other entry as it was; the `IsNullOrEmpty` tests of the news and achievements actions are this applied to `Query.NonEmpty` of the value |
| Query.PutBothIfPresent | src/SteamApi/Controllers/SteamNewsController.cs:149-157 | two optional entries added to a dictionary that holds neither key: each is present exactly when given, and the rest is unchanged |
| PercentEncoding.Escape | src/SteamApi/Services/SteamApiService.cs:164 | the result holds only unreserved characters, `%` and upper-case hex digits, so no `&`, `=`, `?` or `/` remains; text made only of unreserved characters is returned unchanged |
| PercentEncoding.EscapeAppend | src/SteamApi/Services/SteamApiService.cs:164 | the escape of a concatenation is the concatenation of the escapes, so characters are escaped one at a time |
| PercentEncoding.EscapeOne | src/SteamApi/Services/SteamApiService.cs:164 | an unreserved character is kept and any other becomes the `%XX` triples of its UTF-8 bytes; with `EscapeAppend` this fixes the escape of every string |
| PercentEncoding.UnescapeEscape | src/SteamApi/Services/SteamApiService.cs:164 | unescaping an escaped string gives back the string |
| PercentEncoding.EscapeInjective | src/SteamApi/Services/SteamApiService.cs:164 | different strings escape differently |
| PercentEncoding.Utf8 | src/SteamApi/Services/SteamApiService.cs:164 | the encoding of one scalar value is 1 to 4 bytes, and a single byte, equal to the code point, exactly for ASCII (section 3 of RFC 3629) |
| PercentEncoding.Utf8DecodeString | src/SteamApi/Services/SteamApiService.cs:164 | decoding the UTF-8 encoding of a string gives the string back |
| ClientUrls.BuildUrl | src/SteamApi.Client/SteamApiClient.cs:184-196 | the trimmed base and the endpoint, plus a query only when the dictionary is present and non-empty; that query is the dictionary's rendering and reads back as the dictionary, with no key or format flag |
| ClientUrls.GetOwnedGames | src/SteamApi.Client/SteamApiClient.cs:64-83 | the query holds both flags as lower-case `true`/`false`, and `appIdsFilter` exactly when a non-empty filter is given |
| ClientUrls.GetRecentlyPlayedGames | src/SteamApi.Client/SteamApiClient.cs:86-95 | a query holding exactly `count` when a count is given, and an empty dictionary otherwise, which yields no `?` |
| ClientUrls.GetNewsForApp | src/SteamApi.Client/SteamApiClient.cs:98-123 | `count` and `maxLength` always, `feeds` and `tags` exactly when they are given and non-empty |
| ClientUrls.NoQueryString | src/SteamApi.Client/SteamApiClient.cs:37-61 | the calls without a dictionary, and recent games without a count, send a URL with no `?` |
| ClientUrls.GetPlayerSummaries | src/SteamApi.Client/SteamApiClient.cs:43-47 | the call goes to `/api/steamuser/summaries` with a dictionary holding exactly `steamIds`, as given |
| ClientUrls.GetPlayerBans | src/SteamApi.Client/SteamApiClient.cs:57-61 | the call goes to `/api/steamuser/bans` with a dictionary holding exactly `steamIds`, as given |
| ClientUrls.SteamIdListUrls | src/SteamApi.Client/SteamApiClient.cs:43-61 | the summaries and bans URLs are the trimmed base and their endpoint, then `?` and the rendering of `steamIds`, which reads back as that single parameter |
| ClientUrls.FriendListUrl | src/SteamApi.Client/SteamApiClient.cs:50-54 | the Steam ID goes in the path unescaped, and `relationship` is the only query parameter |
| ClientUrls.NewsDefaults | src/SteamApi.Client/SteamApiClient.cs:98-123 | the default news arguments send `count=20` and `maxLength=0` |
| StoreConverters.ReadRequirements | src/SteamApi.Models/Steam/Store/StoreRequirementsConverter.cs:12-35 | null, an array or any other non-object is absent without error; an object gives the requirements its members name |
| StoreConverters.ReadObject | src/SteamApi.Models/Steam/Store/StoreRequirementsConverter.cs:27-34 | an object read fails only on a `minimum` or `recommended` member that is not a string or null; otherwise each property holds the value of the last member that names it |
| StoreConverters.ReadMembersSpec | src/SteamApi.Models/Steam/Store/StoreRequirementsConverter.cs:27-34 | member by member, the read succeeds exactly on well-typed members, and the last member naming a property wins |
| StoreConverters.ReadMinimumOnly | src/SteamApi.Models/Steam/Store/StoreRequirementsConverter.cs:27-34 | `{"minimum":"foo"}` reads as minimum `foo` with no recommended text |
| StoreConverters.WriteRequirements | src/SteamApi.Models/Steam/Store/StoreRequirementsConverter.cs:37-47 | an absent value is written as null; otherwise an object with both properties, nulls included |
| StoreConverters.ReadWriteRequirements | src/SteamApi.Models/Steam/Store/StoreRequirementsConverter.cs:12-47 | writing a value and then reading it gives the value back, whether or not it is absent |
| StoreConverters.ReadRequiredAge | src/SteamApi.Models/Steam/Store/StoreRequirementsConverter.cs:56-76 | a string is read with `int.TryParse`, giving 0 when it does not parse; a number is exactly what `GetInt32` makes of it, so a fraction, an exponent or a value beyond 32 bits is an error as when the source's `GetInt32` throws; any other token gives 0 |
| StoreConverters.ReadWriteRequiredAge | src/SteamApi.Models/Steam/Store/StoreRequirementsConverter.cs:56-81 | writing an age and then reading it gives the age back |
| StoreConverters.StringOrNumberAge | src/SteamApi.Models/Steam/Store/StoreRequirementsConverter.cs:58-71 | `"17"` and `17` read as the same age |
| StoreConverters.UnparsableAgeIsZero | src/SteamApi.Models/Steam/Store/StoreRequirementsConverter.cs:58-66 | a string that is not a 32-bit integer reads as 0 rather than failing |
| Json.GetInt32 | src/SteamApi.Models/Steam/Store/StoreRequirementsConverter.cs:70 | a successful read means the literal is an optional minus and digits, and gives their value; a literal with a fraction or an exponent fails |
| Json.GetInt32OfWritten | src/SteamApi.Models/Steam/Store/StoreRequirementsConverter.cs:68-80 | a written 32-bit number reads back as itself |
| Numbers.IntToString | src/SteamApi/Controllers/SteamAppsController.cs:110-111 | `n.ToString()`: a minus sign exactly for negative values, then the shortest digit string of the magnitude |
| Numbers.TryParseInt32 | src/SteamApi/Controllers/SteamStoreController.cs:76 | `int.TryParse` succeeds only within the 32-bit range, and gives a value of that range |
| Numbers.ParseFormatted | src/SteamApi.Models/Steam/Store/StoreRequirementsConverter.cs:61 | `int.TryParse(n.ToString())` gives back `n` |
| Numbers.ParsePadded | src/SteamApi/Controllers/PlayerController.cs:63 | parsing undoes formatting whatever number white space surrounds the number |
| Numbers.TryParseInteger | src/SteamApi/Controllers/PlayerController.cs:43 | the `NumberStyles.Integer` grammar shared by `int.TryParse` and `ulong.TryParse`: text of number white space alone never parses, and any text that parses holds a decimal digit; `ParsePadded` gives the value of every padded rendering |
| Numbers.UInt64Range | src/SteamApi/Controllers/SteamUserController.cs:95 | `ulong.TryParse`, which decides every Steam ID check, accepts the decimal rendering of an integer exactly when it lies in 0..18446744073709551615 |
| Numbers.ParseFormattedUnsigned | src/SteamApi/Controllers/PlayerController.cs:43 | `ulong.TryParse` accepts the decimal rendering of every value in its range |
| Text.Trim | src/SteamApi/Controllers/SteamUserController.cs:52 | a slice `s[a..b]` of the input with only white space before `a` and after `b`; empty exactly for blank text, and otherwise starting and ending with a character that is not white space |
| Text.TrimEnd | src/SteamApi/Services/SteamApiService.cs:152 | a prefix of the input that does not end in the character, with only copies of that character removed |
| Text.Split | src/SteamApi/Controllers/SteamAppsController.cs:182 | at least one piece, no piece holding the separator, and joining the pieces with it gives back the input |
| Text.SplitJoin | src/SteamApi/Controllers/SteamAppsController.cs:182 | splitting a join of separator-free pieces gives back exactly those pieces |
| Text.IsBlank | src/SteamApi/Controllers/SteamAppsController.cs:178 | `string.IsNullOrWhiteSpace`: the empty (null) text is blank, and a text is blank exactly when scanning it for a character outside the `Char.IsWhiteSpace` set finds none |
| Text.SplitRemoveEmpty | src/SteamApi/Controllers/SteamUserController.cs:38 | `Split(',', RemoveEmptyEntries)`: every entry is non-empty and free of the separator, the entries are exactly the non-empty pieces of the plain split, text without a separator is its own single entry, and text of separators alone has none |
| Text.RemoveEmptyAppend | src/SteamApi/Controllers/SteamStoreController.cs:73 | dropping empty entries works entry by entry and keeps the order of the rest |
| Text.SplitRemoveEmptyJoin | src/SteamApi/Controllers/SteamUserController.cs:38 | a comma-joined list of non-empty, comma-free entries splits back into exactly those entries, with or without `RemoveEmptyEntries` |
| Text.OnlySeparatorsSplitToNothing | src/SteamApi/Controllers/SteamStoreController.cs:73 | with `RemoveEmptyEntries`, a string made only of separators splits into nothing |
| Requests.SteamIdError | src/SteamApi/Controllers/PlayerController.cs:38-46 | empty is "Steam ID is required"; then anything `ulong.TryParse` rejects is "Invalid Steam ID format"; it passes exactly when it parses |
| Requests.EntryError | src/SteamApi/Controllers/SteamUserController.cs:49-56 | nothing when every entry passes; otherwise the prefix followed by the first failing entry, as written |
| Requests.SteamIdListError | src/SteamApi/Controllers/SteamUserController.cs:32-56 | in order: empty, no entries after dropping empty pieces, more than 100 entries when capped, then the first entry that is not a `ulong` once trimmed; it passes exactly when none applies |
| Requests.JoinedSteamIdsPass | src/SteamApi/Controllers/SteamUserController.cs:32-56 | a list joined from well-formed entries passes exactly when it respects the cap |
| Requests.OnlyCommasHoldNoSteamId | src/SteamApi/Controllers/SteamUserController.cs:38-42 | a list of commas alone is not empty but is refused with "At least one Steam ID is required" |
| Requests.ForwardedQueryReadsBack | src/SteamApi/Services/SteamApiService.cs:149-187 | whatever a controller forwards reaches Steam with a query that reads back as the key, the format flag and the controller's dictionary, or as the dictionary alone for the store |
| Requests.HeldNumberReadsBack | src/SteamApi/Controllers/SteamAppsController.cs:110-111 | a number a controller stores as `ToString()` text parses back to the same number |
| SteamApps.GetAppListIn | src/SteamApi/Controllers/SteamAppsController.cs:27-42 | `ISteamApps/GetAppList` with no parameters, in the version asked for |
| SteamApps.AppListUrls | src/SteamApi/Controllers/SteamAppsController.cs:27-173 | the three list actions request the bare key-and-format query and differ only in the version `v0002`, `v2` or `v1` |
| SteamApps.IsValidIpAddress | src/SteamApi/Controllers/SteamAppsController.cs:175-201 | not blank, and either exactly four dot-separated octets in 0..255, or any other number of dots with a colon and at most eight colon-separated parts |
| SteamApps.DottedQuadAccepted | src/SteamApi/Controllers/SteamAppsController.cs:182-193 | every address written as four numbers in 0..255 joined by dots is accepted |
| SteamApps.OctetOutOfRangeRejected | src/SteamApi/Controllers/SteamAppsController.cs:187-190 | a dotted quad whose first part is above 255 is rejected |
| SteamApps.ColonTextAccepted | src/SteamApi/Controllers/SteamAppsController.cs:195-198 | the colon check is loose: `a:b` passes |
| SteamApps.ThreePartsRejected | src/SteamApi/Controllers/SteamAppsController.cs:182-200 | three dotted parts without a colon are rejected |
| SteamApps.GetServersAtAddress | src/SteamApi/Controllers/SteamAppsController.cs:53-80 | an empty address is "required", one the check rejects is "Invalid IP address format", and any other is forwarded as the single `addr` parameter |
| SteamApps.UpToDateCheck | src/SteamApi/Controllers/SteamAppsController.cs:92-125 | the app ID is checked before the version, both must be positive, and both are sent as decimal text |
| SteamUser.GetPlayerSummaries | src/SteamApi/Controllers/SteamUserController.cs:30-74 | forwarded exactly when the capped list check passes; the list is sent as written, untrimmed, as `steamids` |
| SteamUser.GetPlayerBans | src/SteamApi/Controllers/SteamUserController.cs:135-171 | forwarded exactly when the uncapped list check passes, to `GetPlayerBans/v1` |
| SteamUser.SummariesCapBansDoNot | src/SteamApi/Controllers/SteamUserController.cs:45-48 | a list of 101 well-formed IDs is refused by summaries and forwarded by bans |
| SteamUser.GetFriendList | src/SteamApi/Controllers/SteamUserController.cs:86-124 | the Steam ID check, then a relationship that is null, empty, `all` or `friend`; a given relationship is forwarded as it is; a null one (an empty `?relationship=`) makes building the URL throw, giving the 500 "Failed to retrieve friend list from Steam API" |
| SteamUser.GetUserGroupList | src/SteamApi/Controllers/SteamUserController.cs:182-208 | the Steam ID check, then `GetUserGroupList/v1` with the Steam ID alone |
| SteamUser.ResolveVanityUrl | src/SteamApi/Controllers/SteamUserController.cs:220-253 | a non-empty name and a type of 1 or 2; forwarded exactly then, with the type as decimal text |
| SteamUser.Defaults | src/SteamApi/Controllers/SteamUserController.cs:86-222 | the default arguments send `relationship=all` and `url_type=1` |
| Player.FilterError | src/SteamApi/Controllers/PlayerController.cs:57-69 | no error unless a non-empty filter holds an entry that is not an `int` once trimmed; the error names the first such entry as written |
| Player.OwnedGamesParams | src/SteamApi/Controllers/PlayerController.cs:50-66 | the Steam ID, both flags as lower-case text, and the filter exactly when it is non-empty |
| Player.GetOwnedGames | src/SteamApi/Controllers/PlayerController.cs:32-82 | the Steam ID check, then the filter check; forwarded exactly when both pass |
| Player.GetRecentlyPlayedGames | src/SteamApi/Controllers/PlayerController.cs:94-136 | the Steam ID check, then a given count must be 1..100; `count` is sent exactly when one is given |
| Player.SteamIdOnly | src/SteamApi/Controllers/PlayerController.cs:147-210 | `GetSteamLevel` and `GetBadges`: forwarded exactly for a valid Steam ID, with the Steam ID alone |
| Player.GetCommunityBadgeProgress | src/SteamApi/Controllers/PlayerController.cs:222-259 | the Steam ID check only; `badgeid` is sent exactly when given, whatever its value |
| Player.FilterAcceptsCommasAlone | src/SteamApi/Controllers/PlayerController.cs:57-69 | a filter of commas alone is forwarded as it is |
| Player.FilterAcceptsNegative | src/SteamApi/Controllers/PlayerController.cs:60-66 | a negative app ID passes the filter check |
| SteamNews.NewsError | src/SteamApi/Controllers/SteamNewsController.cs:39-52 | in order: a positive app ID, a count of 1..20, a length limit of at least 0; no error exactly when all three hold |
| SteamNews.NewsParams | src/SteamApi/Controllers/SteamNewsController.cs:56-71 | `appid`, `count` and `maxlength` as decimal text, plus `feeds` and `tags` exactly when they are non-empty |
| SteamNews.GetNewsForApp | src/SteamApi/Controllers/SteamNewsController.cs:32-84 | forwarded to `GetNewsForApp/v0002` exactly when the news checks pass |
| SteamNews.AuthedParams | src/SteamApi/Controllers/SteamNewsController.cs:132-157 | the news dictionary unchanged, plus `enddate` and `days` as decimal text exactly when given |
| SteamNews.GetNewsForAppAuthed | src/SteamApi/Controllers/SteamNewsController.cs:101-170 | the news checks, then a given day count of 1..365; forwarded to `GetNewsForAppAuthed/v0001` exactly when all pass |
| SteamNews.AuthedWithoutExtrasIsPublic | src/SteamApi/Controllers/SteamNewsController.cs:56-157 | without `endDate` and `days`, the two actions accept the same arguments and send the same dictionary |
| SteamNews.ClientDefaultsPass | src/SteamApi.Client/SteamApiClient.cs:98-101 | the client's default count and length limit pass the gateway's news checks for every positive app ID |
| SteamUserStats.GetGlobalAchievementPercentagesForApp | src/SteamApi/Controllers/SteamUserStatsController.cs:29-50 | forwarded exactly for a positive game ID, sent as `gameid` |
| SteamUserStats.GetNumberOfCurrentPlayers | src/SteamApi/Controllers/SteamUserStatsController.cs:63-84 | forwarded exactly for a positive app ID, sent as `appid` |
| SteamUserStats.GetPlayerAchievements | src/SteamApi/Controllers/SteamUserStatsController.cs:97-136 | a non-empty Steam ID, then a positive app ID; `l` is sent exactly when the language is non-empty |
| SteamUserStats.GetUserStatsForGame | src/SteamApi/Controllers/SteamUserStatsController.cs:148-178 | a non-empty Steam ID, then a positive app ID; the Steam ID is sent as given |
| SteamUserStats.AnySteamIdTextPasses | src/SteamApi/Controllers/SteamUserStatsController.cs:102-110 | a non-numeric Steam ID reaches Steam through these actions, while the player actions refuse it |
| SteamUserStats.EmptyLanguageIsAbsent | src/SteamApi/Controllers/SteamUserStatsController.cs:119-123 | an empty language sends the same call as no language |
| SteamStore.GetAppDetails | src/SteamApi/Controllers/SteamStoreController.cs:29-54 | forwarded to the store's `appdetails` exactly for a positive app ID, sent as `appids` |
| SteamStore.AppIdsError | src/SteamApi/Controllers/SteamStoreController.cs:67-80 | a blank list is "required"; otherwise no error exactly when every entry is a positive `int` once trimmed, and the first one that is not is named |
| SteamStore.GetAppDetailsMultiple | src/SteamApi/Controllers/SteamStoreController.cs:65-100 | forwarded exactly when the list check passes; the list is sent as written |
| SteamStore.SingleIdAgrees | src/SteamApi/Controllers/SteamStoreController.cs:29-100 | the list action given one positive ID asks for exactly what the single action asks for |
| SteamStore.SingleNonPositiveRefused | src/SteamApi/Controllers/SteamStoreController.cs:31-80 | both actions refuse a single non-positive ID, each with its own message |
| SteamStore.CommasAloneForwarded | src/SteamApi/Controllers/SteamStoreController.cs:67-88 | a list of commas alone has no entry to refuse and is forwarded |

## Left out

- The HTTP pipeline is not modelled: `async`, `HttpClient`, logging, and the `try`/`catch` blocks that turn exceptions into 500 responses. A controller's result is the call it would forward, not Steam's reply.
- The response decoding of `SteamApiService` and the client's `GetAsync` is not modelled. It is generic `System.Text.Json` deserialisation, outside the decision logic modelled here.
- ASP.NET model binding is not modelled. Route and query arguments arrive already typed: a non-number for an `int` parameter never reaches an action.
- RateLimiter.CheckRateLimit: requests are modelled one after another. In the source only the `ConcurrentDictionary` is thread-safe; there is no lock, and `CleanupOldRequests`, `Count` and `Add` run on the shared `List<DateTime>`s without synchronisation. Two concurrent requests with one key can both pass the `>=` ceiling test, so the source can admit past a ceiling. `RateLimiter.CheckKeepsCeilings` and `ApiKeyGate.InvokeKeepsCeilings` hold for sequential requests only.
- `DateTime.UtcNow` is a parameter `now` in ticks, and `DateTime` range overflow in `AddMinutes`/`AddHours` is not modelled.
- RateLimiter.CheckRateLimit: entries are never evicted, as in the source; the store grows by one entry per distinct key.
- ApiKeyGate.Mask: counts Unicode scalar values, where C# `Length` and `Substring` count UTF-16 code units. The two differ only for keys outside the Basic Multilingual Plane.
- PercentEncoding.Escape: Dafny strings cannot hold a lone surrogate, so the exception `Uri.EscapeDataString` raises for one is not modelled.
- `int.TryParse` and `ulong.TryParse` are modelled for the invariant-style `NumberStyles.Integer` only. Culture-specific signs and digits are not modelled.
- Numbers.IntToString: always writes `-` for a negative number. `n.ToString()` uses the current culture's `NegativeSign`, which some cultures set to U+2212, so `enddate` and `badgeid`, which accept any value, can be sent with a different sign in the source.
- ApiKeyGate.ShouldSkip: the model lowers ASCII letters only and then compares prefixes ordinally. The source lowers with the culture-sensitive `ToLower()` and calls `StartsWith` without a `StringComparison`, which is a culture-sensitive comparison. That comparison ignores zero-weight characters such as U+00AD, U+200B and NUL, so the path `/\u00ADhealth` (sent as `/%C2%ADhealth`) skips key validation in the source but not in the model. A combining mark after a prefix, as in `/health\u0301`, can fail the culture-sensitive match where the model skips. Lowering differs too: `İ` (U+0130) lowers to `i` outside the invariant culture, and `I` lowers to `ı` (U+0131) under a Turkish or Azerbaijani culture. Such paths reach no routed endpoint, so the difference is a 401 in one and a 404 in the other.
- The JSON reader is reduced to a value tree. Numbers are literals that `Json.GetInt32` reads; the tokeniser and other number accessors are not modelled.
- `RequiredAgeConverter` is modelled, although no property of the store models is annotated with it.
- The client's `GetStatus`, and `StatusController` behind it, only build a fixed path. `GetStatus` is modelled as such, and the status endpoint's content is not modelled.
- `ResolveVanityURL`'s handling of Steam's reply is not modelled, because it depends on the response body.

=== FILE: api_key_gate.dfy ===
/** `ApiKeyMiddleware.InvokeAsync`: the decision every request passes
    through before reaching a controller. In order: bypass paths, the
    `RequireApiKey` switch, key extraction (header before query), the
    missing-key check, the valid-key check, then the rate limiter. */
module ApiKeyGate {
  import opened Wrappers
  import Text
  import RL = RateLimiter

  /** `ApiKeyOptions`. */
  datatype ApiKeyOptions = ApiKeyOptions(
    validApiKeys: seq<string>,
    requireApiKey: bool,
    headerName: string,
    queryParameterName: string,
    rateLimit: RL.RateLimitOptions)

  /** No valid keys, key required, `X-API-Key` header, `api_key` query
      parameter, default rate limits. */
  const DefaultOptions := ApiKeyOptions([], true, "X-API-Key", "api_key", RL.DefaultRateLimit)

  /** What the middleware reads of a request. `path` is `Request.Path.Value`,
      which may be null. Header and query collections match names without
      regard to case; here they are keyed by the lower-cased name, each
      holding its values in order. */
  datatype Request = Request(
    path: Option<string>,
    headers: map<string, seq<string>>,
    query: map<string, seq<string>>)

  /** What becomes of the request: handed on untouched, handed on with the
      masked key stored under `Items["ApiKey"]`, or answered with a status
      code and an error message. */
  datatype Outcome =
    | PassThrough
    | Authorized(maskedKey: string)
    | Rejected(status: int, error: string)

  /** The outcome and the limiter state after the request. */
  datatype Step = Step(outcome: Outcome, store: RL.Store)

  const BypassPrefixes: seq<string> := ["/api/status", "/health", "/swagger"]

  /** `path` begins with `prefix` when the case of ASCII letters is
      ignored. */
  predicate StartsWithIgnoringCase(path: string, prefix: string) {
    |prefix| <= |path| && forall k :: 0 <= k < |prefix| ==> Text.LowerChar(path[k]) == Text.LowerChar(prefix[k])
  }

  /** `ShouldSkipApiKeyValidation`: the lower-cased path starts with one of
      the bypass prefixes, that is, the path starts with one of them up to
      letter case; a null path never does. */
  function ShouldSkip(path: Option<string>): (r: bool)
    ensures r <==> path.Some? && exists i :: 0 <= i < |BypassPrefixes| && StartsWithIgnoringCase(path.value, BypassPrefixes[i])
  {
    if path.None? then false
    else
      LoweredPrefixes(path.value);
      exists i :: 0 <= i < |BypassPrefixes| && Text.StartsWith(Text.Lower(path.value), BypassPrefixes[i])
  }

  /** Lower-casing the path and comparing is comparing up to case, for each
      bypass prefix. */
  lemma LoweredPrefixes(p: string)
    ensures forall i :: 0 <= i < |BypassPrefixes|
              ==> (Text.StartsWith(Text.Lower(p), BypassPrefixes[i]) <==> StartsWithIgnoringCase(p, BypassPrefixes[i]))
  {
  }

  /** `StringValues.FirstOrDefault()`: the first value, or null when there
      is none. */
  function FirstOrDefault(values: seq<string>): Option<string> {
    if values == [] then None else Some(values[0])
  }

  /** `GetApiKey`: the header whenever it is present, even if it carries no
      usable value; only without the header is the query parameter read. */
  function GetApiKey(o: ApiKeyOptions, req: Request): (r: Option<string>)
    ensures Text.Lower(o.headerName) in req.headers ==> r == FirstOrDefault(req.headers[Text.Lower(o.headerName)])
    ensures Text.Lower(o.headerName) !in req.headers && Text.Lower(o.queryParameterName) in req.query
            ==> r == FirstOrDefault(req.query[Text.Lower(o.queryParameterName)])
    ensures Text.Lower(o.headerName) !in req.headers && Text.Lower(o.queryParameterName) !in req.query ==> r == None
  {
    var h := Text.Lower(o.headerName);
    var q := Text.Lower(o.queryParameterName);
    if h in req.headers then FirstOrDefault(req.headers[h])
    else if q in req.query then FirstOrDefault(req.query[q])
    else None
  }

  /** `MaskApiKey`: `***` for keys of at most eight characters, otherwise
      the first four, `...` and the last four. */
  function Mask(key: string): (r: string)
    ensures |key| <= 8 ==> r == "***"
    ensures |key| > 8 ==> |r| == 11 && r[..4] == key[..4] && r[4..7] == "..." && r[7..] == key[|key| - 4..]
  {
    if |key| <= 8 then "***" else key[..4] + "..." + key[|key| - 4..]
  }

  /** `InvokeAsync` at time `now` with limiter state `store`. */
  function Invoke(o: ApiKeyOptions, store: RL.Store, req: Request, now: int): (r: Step)
    ensures ShouldSkip(req.path) ==> r == Step(PassThrough, store)
    ensures !ShouldSkip(req.path) && !o.requireApiKey ==> r == Step(PassThrough, store)
    ensures r.outcome.Authorized? ==> o.requireApiKey && exists i :: 0 <= i < |o.validApiKeys| && r.outcome.maskedKey == Mask(o.validApiKeys[i])
    ensures r.outcome.Rejected? && r.outcome.status == 401 ==> r.store == store
  {
    if ShouldSkip(req.path) then Step(PassThrough, store)
    else if !o.requireApiKey then Step(PassThrough, store)
    else
      match GetApiKey(o, req)
      case None => Step(Rejected(401, "API key is required"), store)
      case Some(key) =>
        if key == "" then Step(Rejected(401, "API key is required"), store)
        else if key !in o.validApiKeys then Step(Rejected(401, "Invalid API key"), store)
        else if !o.rateLimit.enabled then Step(Authorized(Mask(key)), store)
        else
          var c := RL.CheckRateLimit(store, key, now, o.rateLimit);
          if c.admitted then Step(Authorized(Mask(key)), c.store)
          else Step(Rejected(429, "Rate limit exceeded"), c.store)
  }

  // ---------------------------------------------------------------------
  // The decision, case by case.

  /** The key the request presents, `""` standing for a missing one. */
  function PresentedKey(o: ApiKeyOptions, req: Request): string {
    GetApiKey(o, req).GetOr("")
  }

  /** Once validation applies: a missing key is 401 "API key is required"
      and a key outside the valid list is 401 "Invalid API key", both
      before any rate check and without touching the limiter. */
  lemma KeyChecksComeFirst(o: ApiKeyOptions, store: RL.Store, req: Request, now: int)
    requires !ShouldSkip(req.path) && o.requireApiKey
    ensures PresentedKey(o, req) == ""
            ==> Invoke(o, store, req, now) == Step(Rejected(401, "API key is required"), store)
    ensures PresentedKey(o, req) != "" && PresentedKey(o, req) !in o.validApiKeys
            ==> Invoke(o, store, req, now) == Step(Rejected(401, "Invalid API key"), store)
  {
  }

  /** A valid key with rate limiting off is authorised and no limiter state
      is read or created. */
  lemma ValidKeyWithoutLimit(o: ApiKeyOptions, store: RL.Store, req: Request, now: int)
    requires !ShouldSkip(req.path) && o.requireApiKey && !o.rateLimit.enabled
    requires PresentedKey(o, req) != "" && PresentedKey(o, req) in o.validApiKeys
    ensures Invoke(o, store, req, now) == Step(Authorized(Mask(PresentedKey(o, req))), store)
  {
  }

  /** With rate limiting on, a valid key is authorised exactly when the
      limiter admits it, gets 429 otherwise, and the limiter's new state is
      kept either way. */
  lemma ValidKeyWithLimit(o: ApiKeyOptions, store: RL.Store, req: Request, now: int)
    requires !ShouldSkip(req.path) && o.requireApiKey && o.rateLimit.enabled
    requires PresentedKey(o, req) != "" && PresentedKey(o, req) in o.validApiKeys
    ensures var key := PresentedKey(o, req);
      var c := RL.CheckRateLimit(store, key, now, o.rateLimit);
      && Invoke(o, store, req, now).store == c.store
      && (c.admitted ==> Invoke(o, store, req, now).outcome == Authorized(Mask(key)))
      && (!c.admitted ==> Invoke(o, store, req, now).outcome == Rejected(429, "Rate limit exceeded"))
  {
  }

  /** A request only ever changes the limiter state of the key it presents,
      so the ceilings of every key survive any request. */
  lemma InvokeKeepsCeilings(o: ApiKeyOptions, store: RL.Store, req: Request, now: int)
    requires o.rateLimit.requestsPerMinute >= 0 && o.rateLimit.requestsPerHour >= 0
    requires RL.StoreWithinCeilings(store, o.rateLimit)
    ensures RL.StoreWithinCeilings(Invoke(o, store, req, now).store, o.rateLimit)
    ensures forall k :: k in store && k != PresentedKey(o, req)
              ==> k in Invoke(o, store, req, now).store && Invoke(o, store, req, now).store[k] == store[k]
  {
    var key := PresentedKey(o, req);
    if !ShouldSkip(req.path) && o.requireApiKey && key != "" && key in o.validApiKeys && o.rateLimit.enabled {
      RL.CheckKeepsCeilings(store, key, now, o.rateLimit);
    }
  }

  /** The header wins even when it is empty: a present header with no value
      is a missing key, whatever the query says. */
  lemma HeaderShadowsQuery(o: ApiKeyOptions, store: RL.Store, req: Request, now: int)
    requires !ShouldSkip(req.path) && o.requireApiKey
    requires Text.Lower(o.headerName) in req.headers && req.headers[Text.Lower(o.headerName)] == []
    ensures Invoke(o, store, req, now) == Step(Rejected(401, "API key is required"), store)
  {
  }

  /** The bypass is case-insensitive: a path skips validation exactly when
      its lower-cased form does, so `/Health/ready` skips it. */
  lemma BypassIgnoresCase(p: string)
    ensures ShouldSkip(Some(p)) == ShouldSkip(Some(Text.Lower(p)))
    ensures ShouldSkip(Some("/Health/ready"))
  {
    var l := Text.Lower(p);
    forall i | 0 <= i < |BypassPrefixes|
      ensures StartsWithIgnoringCase(p, BypassPrefixes[i]) <==> StartsWithIgnoringCase(l, BypassPrefixes[i])
    {
      forall k | 0 <= k < |p| ensures Text.LowerChar(l[k]) == Text.LowerChar(p[k]) {
        assert l[k] == Text.LowerChar(p[k]);
      }
    }
    var h := Text.Lower("/Health/ready");
    assert h[..7] == "/health";
    assert Text.StartsWith(h, BypassPrefixes[1]);
    LoweredPrefixes("/Health/ready");
  }

  /** Two long keys that share their first and last four characters mask
      alike: the stored audit string never reveals the middle. */
  lemma MaskHidesMiddle(a: string, b: string)
    requires |a| > 8 && |b| > 8
    requires a[..4] == b[..4] && a[|a| - 4..] == b[|b| - 4..]
    ensures Mask(a) == Mask(b)
  {
  }

  /** An eight-character key such as `abc123de` is masked entirely. */
  lemma MaskOfEightCharacters()
    ensures Mask("abc123de") == "***"
  {
  }
}

=== FILE: client_urls.dfy ===
/** The typed client's side: `SteamApiClient.BuildUrl` and the endpoint and
    query dictionary each `Get…Async` method hands to it. */
module ClientUrls {
  import opened Wrappers
  import Text
  import Numbers
  import Query

  /** `SteamApiClientOptions.BaseUrl`'s default. */
  const DefaultBaseUrl := "http://localhost:5000"

  /** The endpoint and the optional query dictionary of one client call. */
  datatype ClientRequest = ClientRequest(endpoint: string, query: Option<Query.Params>)

  /** `BuildUrl`: the base without trailing slashes, the endpoint as given,
      and a query only when the dictionary is present and not empty; that
      query reads back as the dictionary, with no key or format flag added. */
  function BuildUrl(baseUrl: string, endpoint: string, queryParams: Option<Query.Params>): (url: string)
    ensures var p := Text.TrimEnd(baseUrl, '/') + endpoint;
      && (queryParams.GetOr([]) == [] ==> url == p)
      && (queryParams.GetOr([]) != [] ==>
            |url| > |p| && url[..|p| + 1] == p + "?"
            && Query.Parse(url[|p| + 1..]) == Some(queryParams.GetOr([]))
            && url == p + "?" + Query.Render(queryParams.GetOr([])))
  {
    Query.AppendQuery(Text.TrimEnd(baseUrl, '/') + endpoint, queryParams.GetOr([]))
  }

  /** The URL a call is sent to. */
  function Url(baseUrl: string, r: ClientRequest): string {
    BuildUrl(baseUrl, r.endpoint, r.query)
  }

  // ---------------------------------------------------------------------
  // The calls. Default arguments of the source are the constants below.

  const DefaultRelationship := "all"
  const DefaultNewsCount: Numbers.Int32 := 20
  const DefaultNewsMaxLength: Numbers.Int32 := 0

  function GetStatus(): ClientRequest {
    ClientRequest("/api/status", None)
  }

  /** The summaries query holds the Steam IDs, as given, under `steamIds`
      and nothing else. */
  function GetPlayerSummaries(steamIds: string): (r: ClientRequest)
    ensures r.endpoint == "/api/steamuser/summaries" && r.query.Some?
    ensures Query.Lookup(r.query.value, "steamIds") == Some(steamIds)
    ensures Query.KeySet(r.query.value) == {"steamIds"}
  {
    ClientRequest("/api/steamuser/summaries", Some([("steamIds", steamIds)]))
  }

  function GetFriendList(steamId: string, relationship: string): ClientRequest {
    ClientRequest("/api/steamuser/friends/" + steamId, Some([("relationship", relationship)]))
  }

  /** The bans query holds the Steam IDs, as given, under `steamIds` and
      nothing else. */
  function GetPlayerBans(steamIds: string): (r: ClientRequest)
    ensures r.endpoint == "/api/steamuser/bans" && r.query.Some?
    ensures Query.Lookup(r.query.value, "steamIds") == Some(steamIds)
    ensures Query.KeySet(r.query.value) == {"steamIds"}
  {
    ClientRequest("/api/steamuser/bans", Some([("steamIds", steamIds)]))
  }

  /** The owned-games query: both flags always, as lower-case `true` or
      `false`, and `appIdsFilter` only when it is given and not empty. */
  function GetOwnedGames(steamId: string, includeAppInfo: bool, includePlayedFreeGames: bool,
                         appIdsFilter: Option<string>): (r: ClientRequest)
    ensures r.endpoint == "/api/player/owned-games/" + steamId && r.query.Some?
    ensures Query.Lookup(r.query.value, "includeAppInfo") == Some(Text.BoolText(includeAppInfo))
    ensures Query.Lookup(r.query.value, "includePlayedFreeGames") == Some(Text.BoolText(includePlayedFreeGames))
    ensures Query.Lookup(r.query.value, "appIdsFilter") == Query.NonEmpty(appIdsFilter)
    ensures Query.KeySet(r.query.value)
         == {"includeAppInfo", "includePlayedFreeGames"} + (if Query.NonEmpty(appIdsFilter).Some? then {"appIdsFilter"} else {})
  {
    var ps := [("includeAppInfo", Text.BoolText(includeAppInfo)),
               ("includePlayedFreeGames", Text.BoolText(includePlayedFreeGames))];
    Query.KeySetOfTwo(ps[0], ps[1]);
    ClientRequest("/api/player/owned-games/" + steamId, Some(Query.PutIfPresent(ps, "appIdsFilter", Query.NonEmpty(appIdsFilter))))
  }

  /** The recent-games query holds `count` exactly when a count is given. */
  function GetRecentlyPlayedGames(steamId: string, count: Option<Numbers.Int32>): (r: ClientRequest)
    ensures r.endpoint == "/api/player/recent-games/" + steamId && r.query.Some?
    ensures Query.Lookup(r.query.value, "count") == if count.Some? then Some(Numbers.IntToString(count.value)) else None
    ensures Query.KeySet(r.query.value) == if count.Some? then {"count"} else {}
  {
    var text := if count.Some? then Some(Numbers.IntToString(count.value)) else None;
    ClientRequest("/api/player/recent-games/" + steamId, Some(Query.PutIfPresent([], "count", text)))
  }

  /** The news query: `count` and `maxLength` always, `feeds` and `tags`
      only when given and not empty. */
  function GetNewsForApp(appId: Numbers.Int32, count: Numbers.Int32, maxLength: Numbers.Int32,
                         feeds: Option<string>, tags: Option<string>): (r: ClientRequest)
    ensures r.endpoint == "/api/steamnews/app/" + Numbers.IntToString(appId) && r.query.Some?
    ensures Query.Lookup(r.query.value, "count") == Some(Numbers.IntToString(count))
    ensures Query.Lookup(r.query.value, "maxLength") == Some(Numbers.IntToString(maxLength))
    ensures Query.Lookup(r.query.value, "feeds") == Query.NonEmpty(feeds)
    ensures Query.Lookup(r.query.value, "tags") == Query.NonEmpty(tags)
    ensures Query.KeySet(r.query.value)
         == {"count", "maxLength"} + (if Query.NonEmpty(feeds).Some? then {"feeds"} else {})
            + (if Query.NonEmpty(tags).Some? then {"tags"} else {})
  {
    var ps := NewsLimits(Numbers.IntToString(count), Numbers.IntToString(maxLength));
    ClientRequest("/api/steamnews/app/" + Numbers.IntToString(appId),
                  Some(Query.PutBothIfPresent(ps, "feeds", Query.NonEmpty(feeds), "tags", Query.NonEmpty(tags))))
  }

  /** The two entries every news query carries. */
  function NewsLimits(count: string, maxLength: string): (ps: Query.Params)
    ensures Query.KeySet(ps) == {"count", "maxLength"}
    ensures Query.Lookup(ps, "count") == Some(count) && Query.Lookup(ps, "maxLength") == Some(maxLength)
  {
    var ps := [("count", count), ("maxLength", maxLength)];
    Query.KeySetOfTwo(ps[0], ps[1]);
    assert ps[1..] == [("maxLength", maxLength)];
    ps
  }

  function GetGlobalAchievementPercentagesForApp(gameId: Numbers.Int32): ClientRequest {
    ClientRequest("/api/steamuserstats/achievements/" + Numbers.IntToString(gameId) + "/global", None)
  }

  function GetAppList(): ClientRequest {
    ClientRequest("/api/steamapps/list", None)
  }

  // ---------------------------------------------------------------------
  // What the calls put on the wire.

  /** Calls without a dictionary, and recent games without a count, send
      no query string at all. */
  lemma NoQueryString(baseUrl: string, steamId: string, gameId: Numbers.Int32)
    ensures Url(baseUrl, GetStatus()) == Text.TrimEnd(baseUrl, '/') + "/api/status"
    ensures Url(baseUrl, GetAppList()) == Text.TrimEnd(baseUrl, '/') + "/api/steamapps/list"
    ensures Url(baseUrl, GetGlobalAchievementPercentagesForApp(gameId))
         == Text.TrimEnd(baseUrl, '/') + "/api/steamuserstats/achievements/" + Numbers.IntToString(gameId) + "/global"
    ensures Url(baseUrl, GetRecentlyPlayedGames(steamId, None))
         == Text.TrimEnd(baseUrl, '/') + "/api/player/recent-games/" + steamId
  {
  }

  /** The friend-list URL carries the Steam ID in the path, unescaped, and
      `relationship` as its only query parameter. */
  lemma FriendListUrl(baseUrl: string, steamId: string, relationship: string)
    ensures var p := Text.TrimEnd(baseUrl, '/') + "/api/steamuser/friends/" + steamId;
      var url := Url(baseUrl, GetFriendList(steamId, relationship));
      |url| > |p| && url[..|p| + 1] == p + "?" && Query.Parse(url[|p| + 1..]) == Some([("relationship", relationship)])
  {
    var r := GetFriendList(steamId, relationship);
    var ps := [("relationship", relationship)];
    assert r.query.GetOr([]) == ps;
    assert Text.TrimEnd(baseUrl, '/') + r.endpoint == Text.TrimEnd(baseUrl, '/') + "/api/steamuser/friends/" + steamId;
    assert Url(baseUrl, r) == BuildUrl(baseUrl, r.endpoint, Some(ps));
  }

  /** The summaries and bans URLs differ only in their endpoint; each is
      followed by `?` and the rendering of the single `steamIds` parameter,
      which reads back as that parameter. */
  lemma SteamIdListUrls(baseUrl: string, steamIds: string)
    ensures var q := [("steamIds", steamIds)];
      && Url(baseUrl, GetPlayerSummaries(steamIds)) == Text.TrimEnd(baseUrl, '/') + "/api/steamuser/summaries" + "?" + Query.Render(q)
      && Url(baseUrl, GetPlayerBans(steamIds)) == Text.TrimEnd(baseUrl, '/') + "/api/steamuser/bans" + "?" + Query.Render(q)
      && Query.Parse(Query.Render(q)) == Some(q)
  {
    var q := [("steamIds", steamIds)];
    assert GetPlayerSummaries(steamIds).query.GetOr([]) == q;
    assert GetPlayerBans(steamIds).query.GetOr([]) == q;
    Query.ParseRender(q);
  }

  /** The client's default news arguments send `count=20` and `maxLength=0`. */
  lemma NewsDefaults(appId: Numbers.Int32)
    ensures var q := GetNewsForApp(appId, DefaultNewsCount, DefaultNewsMaxLength, None, None).query.value;
      Query.Lookup(q, "count") == Some("20") && Query.Lookup(q, "maxLength") == Some("0")
  {
    assert Numbers.IntToString(20) == "20";
    assert Numbers.IntToString(0) == "0";
  }
}

=== FILE: json.dfy ===
/** The JSON values the converters see, one token and what it spans, and
    the number reads `Utf8JsonReader` offers on a number token. */
module Json {
  import opened Wrappers
  import Numbers

  /** A JSON value (RFC 8259). A number keeps its literal text, since what
      a read accepts depends on how the number is written. Object members
      keep their order and may repeat a name. */
  datatype Json =
    | JNull
    | JBool(b: bool)
    | JNumber(literal: string)
    | JString(s: string)
    | JArray(items: seq<Json>)
    | JObject(fields: seq<(string, Json)>)

  /** `GetInt32()`: a number written as an optional minus sign and decimal
      digits only (no fraction, no exponent) whose value fits in 32 bits;
      anything else is a `FormatException`. */
  function GetInt32(literal: string): (r: Result<Numbers.Int32, string>)
    ensures r.Ok? ==> |literal| >= 1
    ensures r.Ok? && literal[0] != '-' ==> Numbers.AllDigits(literal) && Numbers.DigitsValue(literal) == r.value
    ensures r.Ok? && literal[0] == '-' ==> Numbers.AllDigits(literal[1..]) && Numbers.DigitsValue(literal[1..]) == 0 - r.value as int
    ensures (exists i :: 0 <= i < |literal| && literal[i] in ".eE") ==> r.Err?
  {
    var negative := |literal| > 0 && literal[0] == '-';
    var digits := if negative then literal[1..] else literal;
    if |digits| == 0 || !Numbers.AllDigits(digits) then Err("FormatException")
    else
      var magnitude: int := Numbers.DigitsValue(digits);
      var v := if negative then -magnitude else magnitude;
      if Numbers.InInt32Range(v) then Ok(v) else Err("FormatException")
  }

  /** `WriteNumberValue(n)` for an `int`: its decimal rendering. */
  function NumberOf(n: int): Json {
    JNumber(Numbers.IntToString(n))
  }

  /** A written 32-bit number reads back as itself. */
  lemma GetInt32OfWritten(n: Numbers.Int32)
    ensures GetInt32(NumberOf(n).literal) == Ok(n)
  {
    var s := Numbers.IntToString(n);
    if n < 0 {
      assert s[0] == '-';
    }
  }
}

=== FILE: numbers.dfy ===
/** Decimal integers as .NET formats and parses them: `int.ToString()`,
    `int.TryParse` and `ulong.TryParse` with the default
    `NumberStyles.Integer` in the invariant culture. */
module Numbers {
  import opened Wrappers
  import Text

  /** C# `int`. */
  type Int32 = x: int | InInt32Range(x)

  predicate InInt32Range(x: int) {
    -0x8000_0000 <= x <= 0x7FFF_FFFF
  }

  /** C# `long`. */
  type Int64 = x: int | -0x8000_0000_0000_0000 <= x <= 0x7FFF_FFFF_FFFF_FFFF

  const UInt64Max: int := 0xFFFF_FFFF_FFFF_FFFF

  predicate IsDigit(c: char) {
    '0' <= c <= '9'
  }

  predicate AllDigits(s: string) {
    forall i :: 0 <= i < |s| ==> IsDigit(s[i])
  }

  function DigitValue(c: char): nat
    requires IsDigit(c)
  {
    c as int - '0' as int
  }

  function DigitChar(d: nat): (c: char)
    requires d < 10
    ensures IsDigit(c) && DigitValue(c) == d
  {
    ('0' as int + d) as char
  }

  /** The value of a run of decimal digits, most significant first. */
  function DigitsValue(s: string): nat
    requires AllDigits(s)
  {
    if |s| == 0 then 0
    else DigitsValue(s[..|s| - 1]) * 10 + DigitValue(s[|s| - 1])
  }

  /** The shortest decimal rendering of `n`: at least one digit, no leading
      zero, and reading it back gives `n`. */
  function NatToDigits(n: nat): (r: string)
    ensures |r| >= 1 && AllDigits(r)
    ensures |r| > 1 ==> r[0] != '0'
    ensures DigitsValue(r) == n
  {
    if n < 10 then [DigitChar(n)]
    else
      var r := NatToDigits(n / 10) + [DigitChar(n % 10)];
      assert r[..|r| - 1] == NatToDigits(n / 10);
      r
  }

  /** `n.ToString()`: a minus sign for negative values, then the digits. */
  function IntToString(n: int): (r: string)
    ensures |r| >= 1
    ensures (r[0] == '-') <==> n < 0
    ensures n < 0 ==> AllDigits(r[1..]) && DigitsValue(r[1..]) == -n
    ensures n >= 0 ==> AllDigits(r) && DigitsValue(r) == n
  {
    if n < 0 then "-" + NatToDigits(-n) else NatToDigits(n)
  }

  /** The characters `NumberStyles.AllowLeadingWhite`/`AllowTrailingWhite`
      skip: U+0009..U+000D and the space. */
  predicate IsNumberWhite(c: char) {
    c == ' ' || ('\t' <= c <= '\r')
  }

  /** Length of the leading run of digits of `s`. */
  function DigitRunLength(s: string): (n: nat)
    ensures n <= |s| && AllDigits(s[..n])
    ensures n < |s| ==> !IsDigit(s[n])
  {
    if s != [] && IsDigit(s[0]) then
      var n := 1 + DigitRunLength(s[1..]);
      assert s[..n] == [s[0]] + s[1..][..n - 1];
      n
    else 0
  }

  /** `s` without its leading number white space. */
  function SkipNumberWhite(s: string): (r: string)
    ensures |r| <= |s| && r == s[|s| - |r|..]
    ensures r == [] || !IsNumberWhite(r[0])
  {
    if |s| > 0 && IsNumberWhite(s[0]) then SkipNumberWhite(s[1..]) else s
  }

  /** What may follow the digits: white space, then only NUL characters. */
  predicate IsNumberTrailer(t: string) {
    var w := SkipNumberWhite(t);
    forall i :: 0 <= i < |w| ==> w[i] == '\0'
  }

  /** The digits at the start of `body` with an acceptable trailer after them. */
  function ParseMagnitude(body: string): Option<nat> {
    var n := DigitRunLength(body);
    if n == 0 || !IsNumberTrailer(body[n..]) then None
    else Some(DigitsValue(body[..n]))
  }

  /** The integer a `TryParse` with `NumberStyles.Integer` reads, before the
      range check of the target type: optional leading white space, an
      optional `+` or `-`, at least one digit, then an optional trailer. */
  function TryParseInteger(s: string): (r: Option<int>)
    ensures (forall i :: 0 <= i < |s| ==> IsNumberWhite(s[i])) ==> r.None?
    ensures r.Some? ==> exists i :: 0 <= i < |s| && IsDigit(s[i])
  {
    var t := SkipNumberWhite(s);
    var negative := |t| > 0 && t[0] == '-';
    var body := if |t| > 0 && (t[0] == '-' || t[0] == '+') then t[1..] else t;
    match ParseMagnitude(body)
    case None => None
    case Some(v) =>
      assert IsDigit(s[|s| - |body|]) by {
        assert body[..DigitRunLength(body)][0] == body[0] == s[|s| - |body|];
      }
      var x: int := v;
      Some(if negative then -x else x)
  }

  /** `int.TryParse(s, out v)`: the parsed value when it fits in 32 bits. */
  function TryParseInt32(s: string): (r: Option<Int32>)
    ensures r.Some? <==> TryParseInteger(s).Some? && InInt32Range(TryParseInteger(s).value)
    ensures r.Some? ==> r.value == TryParseInteger(s).value
  {
    match TryParseInteger(s)
    case Some(v) => if InInt32Range(v) then Some(v as Int32) else None
    case None => None
  }

  /** `ulong.TryParse(s, out _)`: a negative sign is accepted only on zero. */
  predicate IsUInt64(s: string) {
    var r := TryParseInteger(s);
    r.Some? && 0 <= r.value <= UInt64Max
  }

  // ---------------------------------------------------------------------
  // Formatting and parsing agree.

  lemma {:induction false} TrimStartOfWhite(w: string, x: string)
    requires forall i :: 0 <= i < |w| ==> IsNumberWhite(w[i])
    requires x == [] || !IsNumberWhite(x[0])
    ensures SkipNumberWhite(w + x) == x
    decreases |w|
  {
    if w != [] {
      assert (w + x)[1..] == w[1..] + x;
      TrimStartOfWhite(w[1..], x);
    }
  }

  lemma {:induction false} DigitRunOfDigits(d: string, rest: string)
    requires AllDigits(d)
    requires rest == [] || !IsDigit(rest[0])
    ensures DigitRunLength(d + rest) == |d|
    decreases |d|
  {
    if d == [] {
      assert d + rest == rest;
    } else {
      assert (d + rest)[1..] == d[1..] + rest;
      DigitRunOfDigits(d[1..], rest);
    }
  }

  lemma WhiteIsTrailer(w: string)
    requires forall i :: 0 <= i < |w| ==> IsNumberWhite(w[i])
    ensures IsNumberTrailer(w)
  {
    TrimStartOfWhite(w, []);
    assert w + [] == w;
  }

  lemma ParseMagnitudeOfDigits(digits: string, w: string)
    requires AllDigits(digits) && |digits| >= 1
    requires forall i :: 0 <= i < |w| ==> IsNumberWhite(w[i])
    ensures ParseMagnitude(digits + w) == Some(DigitsValue(digits))
  {
    var body := digits + w;
    DigitRunOfDigits(digits, w);
    assert body[..|digits|] == digits;
    assert body[|digits|..] == w;
    WhiteIsTrailer(w);
  }

  /** The two ways `TryParseInteger` succeeds: an unsigned magnitude right
      after the leading white space, or one after a minus sign. */
  lemma ReadUnsigned(s: string, v: nat)
    requires var t := SkipNumberWhite(s); |t| > 0 && t[0] != '-' && t[0] != '+' && ParseMagnitude(t) == Some(v)
    ensures TryParseInteger(s) == Some(v)
  {
    var t := SkipNumberWhite(s);
    assert !(|t| > 0 && (t[0] == '-' || t[0] == '+'));
  }

  lemma ReadNegative(s: string, v: nat)
    requires var t := SkipNumberWhite(s); |t| > 0 && t[0] == '-' && ParseMagnitude(t[1..]) == Some(v)
    ensures TryParseInteger(s) == Some(0 - v)
  {
    var t := SkipNumberWhite(s);
    assert |t| > 0 && t[0] == '-';
    var x: int := v;
    assert ParseMagnitude(t[1..]) == Some(v);
  }

  lemma DropFirstOfJoin(a: string, b: string)
    requires |a| >= 1
    ensures (a + b)[0] == a[0] && (a + b)[1..] == a[1..] + b
  {
  }

  /** A minus sign, digits and trailing white space, once the leading white
      space is gone, read as the negated value of the digits... */
  lemma ParseNegativeText(s: string, d: string, w: string, v: nat)
    requires forall i :: 0 <= i < |w| ==> IsNumberWhite(w[i])
    requires |d| >= 2 && d[0] == '-' && AllDigits(d[1..]) && DigitsValue(d[1..]) == v
    requires SkipNumberWhite(s) == d + w
    ensures TryParseInteger(s) == Some(0 - v)
  {
    assert (d + w)[0] == '-' && ParseMagnitude((d + w)[1..]) == Some(v) by {
      DropFirstOfJoin(d, w);
      ParseMagnitudeOfDigits(d[1..], w);
    }
    ReadNegative(s, v);
  }

  /** ... and digits alone as their value. */
  lemma ParseUnsignedText(s: string, d: string, w: string)
    requires forall i :: 0 <= i < |w| ==> IsNumberWhite(w[i])
    requires |d| >= 1 && AllDigits(d)
    requires SkipNumberWhite(s) == d + w
    ensures TryParseInteger(s) == Some(DigitsValue(d))
  {
    assert (d + w)[0] != '-' && (d + w)[0] != '+' && ParseMagnitude(d + w) == Some(DigitsValue(d)) by {
      DropFirstOfJoin(d, w);
      assert IsDigit(d[0]);
      ParseMagnitudeOfDigits(d, w);
    }
    ReadUnsigned(s, DigitsValue(d));
  }

  /** Parsing undoes formatting, whatever white space surrounds the number. */
  lemma ParsePadded(w1: string, n: int, w2: string)
    requires forall i :: 0 <= i < |w1| ==> IsNumberWhite(w1[i])
    requires forall i :: 0 <= i < |w2| ==> IsNumberWhite(w2[i])
    ensures TryParseInteger(w1 + IntToString(n) + w2) == Some(n)
  {
    var d := IntToString(n);
    var s := w1 + d + w2;
    assert s == w1 + (d + w2);
    TrimStartOfWhite(w1, d + w2);
    if n < 0 {
      ParseNegativeText(s, d, w2, -n);
    } else {
      ParseUnsignedText(s, d, w2);
    }
  }

  /** `int.TryParse(n.ToString())` gives back `n`. */
  lemma ParseFormatted(n: Int32)
    ensures TryParseInt32(IntToString(n)) == Some(n)
  {
    ParsePadded("", n, "");
    assert "" + IntToString(n) + "" == IntToString(n);
  }

  /** `ulong.TryParse` accepts the rendering of every value in its range. */
  /** The decimal rendering of an integer passes `ulong.TryParse` exactly
      when the integer lies in the range of `ulong`. */
  lemma UInt64Range(n: int)
    ensures IsUInt64(IntToString(n)) <==> 0 <= n <= UInt64Max
  {
    ParsePadded([], n, []);
    Unpadded(IntToString(n));
  }

  /** Padding with nothing on either side changes nothing. */
  lemma Unpadded(t: string)
    ensures [] + t + [] == t
  {
  }

  lemma ParseFormattedUnsigned(n: nat)
    requires n <= UInt64Max
    ensures IsUInt64(IntToString(n))
  {
    ParsePadded("", n, "");
    assert "" + IntToString(n) + "" == IntToString(n);
  }
}

=== FILE: percent_encoding.dfy ===
/** `Uri.EscapeDataString`: percent-encoding as section 2.1 of RFC 3986
    defines it, applied to the UTF-8 bytes (RFC 3629) of every character
    outside the unreserved set of section 2.3, with upper-case hex digits.
    `Unescape` is its inverse, used to state that nothing is lost. */
module PercentEncoding {
  import opened Wrappers

  type Byte = x: int | 0 <= x < 256

  /** The unreserved characters of section 2.3 of RFC 3986:
      ALPHA / DIGIT / "-" / "." / "_" / "~". */
  predicate IsUnreserved(c: char) {
    || ('A' <= c <= 'Z') || ('a' <= c <= 'z') || ('0' <= c <= '9')
    || c == '-' || c == '.' || c == '_' || c == '~'
  }

  predicate IsUpperHexDigit(c: char) {
    ('0' <= c <= '9') || ('A' <= c <= 'F')
  }

  /** The characters an escaped string can contain. */
  predicate IsEscapedChar(c: char) {
    IsUnreserved(c) || c == '%' || IsUpperHexDigit(c)
  }

  function HexDigit(d: int): (c: char)
    requires 0 <= d < 16
    ensures IsUpperHexDigit(c)
  {
    if d < 10 then ('0' as int + d) as char else ('A' as int + d - 10) as char
  }

  /** The value of a hex digit of either case (section 2.1 of RFC 3986 makes
      them equivalent). */
  function HexValue(c: char): Option<int> {
    if '0' <= c <= '9' then Some(c as int - '0' as int)
    else if 'A' <= c <= 'F' then Some(c as int - 'A' as int + 10)
    else if 'a' <= c <= 'f' then Some(c as int - 'a' as int + 10)
    else None
  }

  /** The UTF-8 encoding of one Unicode scalar value (section 3 of RFC 3629). */
  function Utf8(c: char): (bs: seq<Byte>)
    ensures 1 <= |bs| <= 4
    ensures |bs| == 1 <==> c as int < 0x80
    ensures |bs| == 1 ==> bs[0] == c as int
  {
    var n := c as int;
    if n < 0x80 then [n]
    else
      var r0 := n % 64;
      var q1 := n / 64;
      if n < 0x800 then [0xC0 + q1, 0x80 + r0]
      else
        var r1 := q1 % 64;
        var q2 := q1 / 64;
        if n < 0x10000 then [0xE0 + q2, 0x80 + r1, 0x80 + r0]
        else
          var r2 := q2 % 64;
          var q3 := q2 / 64;
          [0xF0 + q3, 0x80 + r2, 0x80 + r1, 0x80 + r0]
  }

  /** `%` followed by the two upper-case hex digits of `b`. */
  function EscapeByte(b: Byte): (r: string)
    ensures |r| == 3 && r[0] == '%'
  {
    ['%', HexDigit(b / 16), HexDigit(b % 16)]
  }

  function EscapeBytes(bs: seq<Byte>): (r: string)
    ensures forall i :: 0 <= i < |r| ==> IsEscapedChar(r[i])
  {
    if bs == [] then [] else EscapeByte(bs[0]) + EscapeBytes(bs[1..])
  }

  /** One character: kept when unreserved, otherwise its UTF-8 bytes escaped. */
  function EscapeChar(c: char): (r: string)
    ensures forall i :: 0 <= i < |r| ==> IsEscapedChar(r[i])
  {
    if IsUnreserved(c) then [c] else EscapeBytes(Utf8(c))
  }

  /** `Uri.EscapeDataString(s)`. Its output never holds a query delimiter
      such as `&` or `=`, and it leaves unreserved characters untouched. */
  function Escape(s: string): (r: string)
    ensures forall i :: 0 <= i < |r| ==> IsEscapedChar(r[i])
    ensures '&' !in r && '=' !in r && '?' !in r && '/' !in r
    ensures (forall i :: 0 <= i < |s| ==> IsUnreserved(s[i])) ==> r == s
  {
    if s == [] then []
    else
      var head := EscapeChar(s[0]);
      var tail := Escape(s[1..]);
      EscapedJoin(head, tail);
      NoDelimiter(head + tail);
      assert (forall i :: 0 <= i < |s| ==> IsUnreserved(s[i])) ==> head + tail == s by {
        if forall i :: 0 <= i < |s| ==> IsUnreserved(s[i]) {
          assert forall i :: 0 <= i < |s[1..]| ==> IsUnreserved(s[1..][i]);
          assert s == [s[0]] + s[1..];
        }
      }
      head + tail
  }

  /** Escaping works character by character: the escape of a concatenation
      is the concatenation of the escapes. */
  lemma {:induction false} EscapeAppend(a: string, b: string)
    ensures Escape(a + b) == Escape(a) + Escape(b)
    decreases |a|
  {
    if a == [] {
      assert a + b == b;
    } else {
      assert (a + b)[1..] == a[1..] + b;
      EscapeAppend(a[1..], b);
    }
  }

  /** One character escapes to itself when it is unreserved and to the
      `%XX` triples of its UTF-8 bytes otherwise. */
  lemma EscapeOne(c: char)
    ensures Escape([c]) == if IsUnreserved(c) then [c] else EscapeBytes(Utf8(c))
  {
  }

  /** Escaped text holds none of the characters that delimit a URL's
      parts. */
  lemma NoDelimiter(r: string)
    requires forall i :: 0 <= i < |r| ==> IsEscapedChar(r[i])
    ensures '&' !in r && '=' !in r && '?' !in r && '/' !in r
  {
  }

  lemma EscapedJoin(a: string, b: string)
    requires forall i :: 0 <= i < |a| ==> IsEscapedChar(a[i])
    requires forall i :: 0 <= i < |b| ==> IsEscapedChar(b[i])
    ensures forall i :: 0 <= i < |a + b| ==> IsEscapedChar((a + b)[i])
  {
    forall i | 0 <= i < |a + b| ensures IsEscapedChar((a + b)[i]) {
      if i >= |a| {
        assert (a + b)[i] == b[i - |a|];
      }
    }
  }

  // ---------------------------------------------------------------------
  // The inverse: percent-decoding followed by UTF-8 decoding.

  /** The bytes a strictly escaped string stands for: every `%` is followed
      by two hex digits and every other character is unreserved. */
  function PercentDecode(s: string): Option<seq<Byte>> {
    if s == [] then Some([])
    else if s[0] == '%' then
      if |s| >= 3 && HexValue(s[1]).Some? && HexValue(s[2]).Some? then
        match PercentDecode(s[3..])
        case Some(rest) => Some([HexValue(s[1]).value * 16 + HexValue(s[2]).value] + rest)
        case None => None
      else None
    else if IsUnreserved(s[0]) then
      match PercentDecode(s[1..])
      case Some(rest) => Some([s[0] as int] + rest)
      case None => None
    else None
  }

  predicate IsContinuation(b: Byte) {
    0x80 <= b < 0xC0
  }

  function Prepend(c: char, o: Option<string>): Option<string> {
    match o
    case Some(t) => Some([c] + t)
    case None => None
  }

  /** Decodes well-formed UTF-8 (shortest forms only, no surrogates). */
  function Utf8Decode(bs: seq<Byte>): Option<string>
    decreases |bs|
  {
    if bs == [] then Some([])
    else
      var b0: int := bs[0];
      var b1: int := if |bs| >= 2 then bs[1] else 0;
      var b2: int := if |bs| >= 3 then bs[2] else 0;
      var b3: int := if |bs| >= 4 then bs[3] else 0;
      if b0 < 0x80 then Prepend(b0 as char, Utf8Decode(bs[1..]))
      else if 0xC2 <= b0 < 0xE0 && |bs| >= 2 && IsContinuation(bs[1]) then
        var v := (b0 - 0xC0) * 64 + (b1 - 0x80);
        Prepend(v as char, Utf8Decode(bs[2..]))
      else if 0xE0 <= b0 < 0xF0 && |bs| >= 3 && IsContinuation(bs[1]) && IsContinuation(bs[2]) then
        var v := (b0 - 0xE0) * 4096 + (b1 - 0x80) * 64 + (b2 - 0x80);
        if v < 0x800 || (0xD800 <= v < 0xE000) then None
        else Prepend(v as char, Utf8Decode(bs[3..]))
      else if 0xF0 <= b0 < 0xF5 && |bs| >= 4 && IsContinuation(bs[1]) && IsContinuation(bs[2])
              && IsContinuation(bs[3]) then
        var v := (b0 - 0xF0) * 262144 + (b1 - 0x80) * 4096 + (b2 - 0x80) * 64 + (b3 - 0x80);
        if v < 0x10000 || v >= 0x110000 then None
        else Prepend(v as char, Utf8Decode(bs[4..]))
      else None
  }

  /** `Uri.UnescapeDataString` restricted to strictly escaped input. */
  function Unescape(s: string): Option<string> {
    match PercentDecode(s)
    case Some(bs) => Utf8Decode(bs)
    case None => None
  }

  /** The UTF-8 encoding of a whole string. */
  function Utf8String(s: string): seq<Byte> {
    if s == [] then [] else Utf8(s[0]) + Utf8String(s[1..])
  }

  // ---------------------------------------------------------------------
  // Unescaping undoes escaping.

  lemma Utf8DecodeChar(c: char, rest: seq<Byte>)
    ensures Utf8Decode(Utf8(c) + rest) == Prepend(c, Utf8Decode(rest))
  {
    var n := c as int;
    var bs := Utf8(c) + rest;
    var r0 := n % 64;
    var q1 := n / 64;
    var r1 := q1 % 64;
    var q2 := q1 / 64;
    var r2 := q2 % 64;
    var q3 := q2 / 64;
    if n < 0x80 {
      assert bs[1..] == rest;
      assert n as char == c;
    } else if n < 0x800 {
      assert bs[2..] == rest;
      assert (bs[0] as int - 0xC0) * 64 + (bs[1] as int - 0x80) == n;
      assert n as char == c;
    } else if n < 0x10000 {
      assert bs[3..] == rest;
      assert q1 == q2 * 64 + r1;
      assert (bs[0] as int - 0xE0) * 4096 + (bs[1] as int - 0x80) * 64 + (bs[2] as int - 0x80) == n;
      assert n as char == c;
    } else {
      assert bs[4..] == rest;
      assert q1 == q2 * 64 + r1;
      assert q2 == q3 * 64 + r2;
      assert (bs[0] as int - 0xF0) * 262144 + (bs[1] as int - 0x80) * 4096 + (bs[2] as int - 0x80) * 64 + (bs[3] as int - 0x80) == n;
      assert n as char == c;
    }
  }

  lemma {:induction false} Utf8DecodeString(s: string)
    ensures Utf8Decode(Utf8String(s)) == Some(s)
    decreases |s|
  {
    if s != [] {
      Utf8DecodeString(s[1..]);
      Utf8DecodeChar(s[0], Utf8String(s[1..]));
      assert [s[0]] + s[1..] == s;
    }
  }

  lemma HexRoundTrip(d: int)
    requires 0 <= d < 16
    ensures HexValue(HexDigit(d)) == Some(d)
  {
  }

  lemma {:induction false} PercentDecodeBytes(bs: seq<Byte>, t: string)
    ensures PercentDecode(EscapeBytes(bs) + t)
         == (match PercentDecode(t) case Some(rest) => Some(bs + rest) case None => None)
    decreases |bs|
  {
    if bs == [] {
      assert EscapeBytes(bs) + t == t;
      match PercentDecode(t)
      case Some(rest) =>
        assert bs + rest == rest;
      case None =>
    } else {
      var b := bs[0];
      var s := EscapeBytes(bs) + t;
      assert s == EscapeByte(b) + (EscapeBytes(bs[1..]) + t);
      HexRoundTrip(b / 16);
      HexRoundTrip(b % 16);
      assert s[3..] == EscapeBytes(bs[1..]) + t;
      PercentDecodeBytes(bs[1..], t);
      assert [b] + bs[1..] == bs;
      match PercentDecode(t)
      case Some(rest) =>
        assert [b] + (bs[1..] + rest) == bs + rest;
      case None =>
    }
  }

  lemma PercentDecodeChar(c: char, t: string)
    ensures PercentDecode(EscapeChar(c) + t)
         == (match PercentDecode(t) case Some(rest) => Some(Utf8(c) + rest) case None => None)
  {
    if IsUnreserved(c) {
      assert ([c] + t)[1..] == t;
    } else {
      PercentDecodeBytes(Utf8(c), t);
    }
  }

  lemma {:induction false} PercentDecodeEscape(s: string)
    ensures PercentDecode(Escape(s)) == Some(Utf8String(s))
    decreases |s|
  {
    if s != [] {
      PercentDecodeEscape(s[1..]);
      PercentDecodeChar(s[0], Escape(s[1..]));
    }
  }

  /** Percent-encoding loses nothing: unescaping gives back the input. */
  lemma UnescapeEscape(s: string)
    ensures Unescape(Escape(s)) == Some(s)
  {
    PercentDecodeEscape(s);
    Utf8DecodeString(s);
  }

  /** Different strings escape differently. */
  lemma EscapeInjective(s: string, t: string)
    requires Escape(s) == Escape(t)
    ensures s == t
  {
    UnescapeEscape(s);
    UnescapeEscape(t);
  }
}

=== FILE: player.dfy ===
/** `PlayerController`: the `IPlayerService` calls. Every action checks the
    Steam ID path segment first. */
module Player {
  import opened Wrappers
  import Text
  import Numbers
  import Query
  import opened Requests

  /** The app IDs an owned-games filter names. */
  function FilterEntries(filter: string): seq<string> {
    Text.SplitRemoveEmpty(filter, ',')
  }

  /** The owned-games filter check: nothing to check unless a non-empty
      filter is given, and then every entry must be an `int` once trimmed,
      the first that is not being named as written. */
  function FilterError(appIdsFilter: Option<string>): (r: Option<string>)
    ensures var f := Query.NonEmpty(appIdsFilter);
      r.None? <==> (f.Some? ==> forall i :: 0 <= i < |FilterEntries(f.value)| ==> IsAppIdEntry(FilterEntries(f.value)[i]))
    ensures var f := Query.NonEmpty(appIdsFilter);
      r.Some? ==> f.Some? && exists i :: IsFirstInvalid(FilterEntries(f.value), IsAppIdEntry, i)
                                         && r.value == "Invalid App ID format: " + FilterEntries(f.value)[i]
  {
    var f := Query.NonEmpty(appIdsFilter);
    if f.Some? then EntryError(FilterEntries(f.value), IsAppIdEntry, "Invalid App ID format: ") else None
  }

  /** The owned-games dictionary: the Steam ID, both flags as lower-case
      `true`/`false`, and the filter as given when it is not empty. */
  function OwnedGamesParams(steamId: string, includeAppInfo: bool, includePlayedFreeGames: bool,
                            appIdsFilter: Option<string>): (ps: Query.Params)
    ensures Query.KeySet(ps)
            == {"steamid", "include_appinfo", "include_played_free_games"}
               + (if Query.NonEmpty(appIdsFilter).Some? then {"appids_filter"} else {})
    ensures Query.Lookup(ps, "steamid") == Some(steamId)
    ensures Query.Lookup(ps, "include_appinfo") == Some(Text.BoolText(includeAppInfo))
    ensures Query.Lookup(ps, "include_played_free_games") == Some(Text.BoolText(includePlayedFreeGames))
    ensures Query.Lookup(ps, "appids_filter") == Query.NonEmpty(appIdsFilter)
  {
    var ps := [("steamid", steamId), ("include_appinfo", Text.BoolText(includeAppInfo)),
               ("include_played_free_games", Text.BoolText(includePlayedFreeGames))];
    Query.KeySetOfThree(ps[0], ps[1], ps[2]);
    Query.PutIfPresent(ps, "appids_filter", Query.NonEmpty(appIdsFilter))
  }

  /** `GET owned-games/{steamId}`: the Steam ID check, then the filter
      check, then the owned-games dictionary. */
  function GetOwnedGames(steamId: string, includeAppInfo: bool, includePlayedFreeGames: bool,
                         appIdsFilter: Option<string>): (r: Answer)
    ensures SteamIdError(steamId).Some? ==> r == BadRequest(SteamIdError(steamId).value)
    ensures SteamIdError(steamId).None? && FilterError(appIdsFilter).Some?
            ==> r == BadRequest(FilterError(appIdsFilter).value)
    ensures r.Forward? <==> Numbers.IsUInt64(steamId) && FilterError(appIdsFilter).None?
    ensures r.Forward?
            ==> r.call.Versioned? && r.call.interfaceName == "IPlayerService"
                && r.call.methodName == "GetOwnedGames" && r.call.version == "v0001"
                && r.call.params == OwnedGamesParams(steamId, includeAppInfo, includePlayedFreeGames, appIdsFilter)
  {
    match SteamIdError(steamId)
    case Some(e) => BadRequest(e)
    case None =>
      match FilterError(appIdsFilter)
      case Some(e) => BadRequest(e)
      case None =>
        Forward(Versioned("IPlayerService", "GetOwnedGames", "v0001",
                          OwnedGamesParams(steamId, includeAppInfo, includePlayedFreeGames, appIdsFilter)))
  }

  /** `GET recent-games/{steamId}?count=`: the Steam ID check, then a given
      count must be 1..100; `count` is sent exactly when it is given. */
  function GetRecentlyPlayedGames(steamId: string, count: Option<Numbers.Int32>): (r: Answer)
    ensures SteamIdError(steamId).Some? ==> r == BadRequest(SteamIdError(steamId).value)
    ensures SteamIdError(steamId).None? && count.Some? && !(1 <= count.value <= 100)
            ==> r == BadRequest("Count must be between 1 and 100")
    ensures r.Forward? <==> Numbers.IsUInt64(steamId) && (count.Some? ==> 1 <= count.value <= 100)
    ensures r.Forward?
            ==> r.call.Versioned? && r.call.interfaceName == "IPlayerService"
                && r.call.methodName == "GetRecentlyPlayedGames" && r.call.version == "v0001"
                && Query.KeySet(r.call.params) == {"steamid"} + (if count.Some? then {"count"} else {})
                && Query.Lookup(r.call.params, "steamid") == Some(steamId)
                && (count.Some? ==> HoldsNumber(r.call.params, "count", count.value))
  {
    match SteamIdError(steamId)
    case Some(e) => BadRequest(e)
    case None =>
      if count.Some? && (count.value <= 0 || count.value > 100) then BadRequest("Count must be between 1 and 100")
      else
        Query.KeySetOfOne(("steamid", steamId));
        var text := if count.Some? then Some(Numbers.IntToString(count.value)) else None;
        Forward(Versioned("IPlayerService", "GetRecentlyPlayedGames", "v0001",
                          Query.PutIfPresent([("steamid", steamId)], "count", text)))
  }

  /** The actions that send the Steam ID alone. */
  function SteamIdOnly(methodName: string, steamId: string): (r: Answer)
    ensures SteamIdError(steamId).Some? ==> r == BadRequest(SteamIdError(steamId).value)
    ensures r.Forward? <==> Numbers.IsUInt64(steamId)
    ensures r.Forward?
            ==> r.call.Versioned? && r.call.interfaceName == "IPlayerService"
                && r.call.methodName == methodName && r.call.version == "v0001"
                && Query.KeySet(r.call.params) == {"steamid"} && Query.Lookup(r.call.params, "steamid") == Some(steamId)
  {
    match SteamIdError(steamId)
    case Some(e) => BadRequest(e)
    case None =>
      Query.KeySetOfOne(("steamid", steamId));
      Forward(Versioned("IPlayerService", methodName, "v0001", [("steamid", steamId)]))
  }

  /** `GET level/{steamId}`. */
  function GetSteamLevel(steamId: string): Answer {
    SteamIdOnly("GetSteamLevel", steamId)
  }

  /** `GET badges/{steamId}`. */
  function GetBadges(steamId: string): Answer {
    SteamIdOnly("GetBadges", steamId)
  }

  /** `GET badge-progress/{steamId}?badgeId=`: the Steam ID check, with
      `badgeid` sent exactly when a badge is given, any value allowed. */
  function GetCommunityBadgeProgress(steamId: string, badgeId: Option<Numbers.Int32>): (r: Answer)
    ensures SteamIdError(steamId).Some? ==> r == BadRequest(SteamIdError(steamId).value)
    ensures r.Forward? <==> Numbers.IsUInt64(steamId)
    ensures r.Forward?
            ==> r.call.Versioned? && r.call.interfaceName == "IPlayerService"
                && r.call.methodName == "GetCommunityBadgeProgress" && r.call.version == "v0001"
                && Query.KeySet(r.call.params) == {"steamid"} + (if badgeId.Some? then {"badgeid"} else {})
                && Query.Lookup(r.call.params, "steamid") == Some(steamId)
                && (badgeId.Some? ==> HoldsNumber(r.call.params, "badgeid", badgeId.value))
  {
    match SteamIdError(steamId)
    case Some(e) => BadRequest(e)
    case None =>
      Query.KeySetOfOne(("steamid", steamId));
      var text := if badgeId.Some? then Some(Numbers.IntToString(badgeId.value)) else None;
      Forward(Versioned("IPlayerService", "GetCommunityBadgeProgress", "v0001",
                        Query.PutIfPresent([("steamid", steamId)], "badgeid", text)))
  }

  /** The filter is checked only for being made of integers: negative and
      zero app IDs pass, and a filter of commas alone is forwarded as it
      is. */
  lemma FilterAcceptsCommasAlone(steamId: string, filter: string)
    requires Numbers.IsUInt64(steamId) && filter != ""
    requires forall i :: 0 <= i < |filter| ==> filter[i] == ','
    ensures GetOwnedGames(steamId, false, false, Some(filter)).Forward?
    ensures Query.Lookup(GetOwnedGames(steamId, false, false, Some(filter)).call.params, "appids_filter") == Some(filter)
  {
    Text.OnlySeparatorsSplitToNothing(filter, ',');
  }

  /** A single negative app ID passes the filter check. */
  lemma FilterAcceptsNegative(steamId: string, n: Numbers.Int32)
    requires Numbers.IsUInt64(steamId) && n < 0
    ensures GetOwnedGames(steamId, true, true, Some(Numbers.IntToString(n))).Forward?
  {
    var t := Numbers.IntToString(n);
    NumberText(n);
    Text.SplitWithoutSeparator(t, ',');
    assert FilterEntries(t) == [t];
    Numbers.ParseFormatted(n);
  }
}

=== FILE: query.dfy ===
/** Query parameters: a `Dictionary<string, string>` seen in its enumeration
    order, and the `key=value&...` query string built from it with every key
    and value escaped on its own. */
module Query {
  import opened Wrappers
  import Text
  import PE = PercentEncoding

  /** Key/value pairs in dictionary enumeration (insertion) order. */
  type Params = seq<(string, string)>

  /** A dictionary never holds the same key twice. */
  predicate DistinctKeys(ps: Params) {
    forall i, j :: 0 <= i < j < |ps| ==> ps[i].0 != ps[j].0
  }

  function KeySet(ps: Params): set<string> {
    set i | 0 <= i < |ps| :: ps[i].0
  }

  lemma KeySetCons(p: (string, string), ps: Params)
    ensures KeySet([p] + ps) == {p.0} + KeySet(ps)
  {
    var qs := [p] + ps;
    forall k | k in KeySet(qs) ensures k in {p.0} + KeySet(ps) {
      var i :| 0 <= i < |qs| && qs[i].0 == k;
      if i > 0 {
        assert ps[i - 1].0 == k;
      }
    }
    forall k | k in KeySet(ps) ensures k in KeySet(qs) {
      var i :| 0 <= i < |ps| && ps[i].0 == k;
      assert qs[i + 1].0 == k;
    }
    assert qs[0].0 == p.0;
  }

  /** The value stored under `k`, if any. */
  function Lookup(ps: Params, k: string): (r: Option<string>)
    ensures r.Some? <==> k in KeySet(ps)
    ensures r.Some? ==> (k, r.value) in ps
  {
    if ps == [] then None
    else if ps[0].0 == k then Some(ps[0].1)
    else
      assert ps == [ps[0]] + ps[1..];
      KeySetCons(ps[0], ps[1..]);
      Lookup(ps[1..], k)
  }

  /** The indexer assignment `d[k] = v`: replaces the value in place when the
      key is present, and otherwise appends the pair at the end. */
  function Put(ps: Params, k: string, v: string): (r: Params)
    ensures KeySet(r) == KeySet(ps) + {k}
    ensures k in KeySet(ps) ==> |r| == |ps|
    ensures k !in KeySet(ps) ==> r == ps + [(k, v)]
  {
    if ps == [] then
      assert KeySet([(k, v)]) == {k} by { KeySetCons((k, v), []); }
      [(k, v)]
    else
      assert ps == [ps[0]] + ps[1..];
      KeySetCons(ps[0], ps[1..]);
      if ps[0].0 == k then
        KeySetCons((k, v), ps[1..]);
        [(k, v)] + ps[1..]
      else
        var rest := Put(ps[1..], k, v);
        KeySetCons(ps[0], rest);
        [ps[0]] + rest
  }

  /** After `d[k] = v`, `k` holds `v` and every other key is unchanged. */
  lemma {:induction false} PutLookup(ps: Params, k: string, v: string, k': string)
    ensures Lookup(Put(ps, k, v), k') == if k' == k then Some(v) else Lookup(ps, k')
    decreases |ps|
  {
    if ps != [] && ps[0].0 != k {
      PutLookup(ps[1..], k, v, k');
      assert Put(ps, k, v)[1..] == Put(ps[1..], k, v);
    }
  }

  /** `d[k] = v` keeps the keys of a dictionary distinct. */
  lemma {:induction false} PutDistinct(ps: Params, k: string, v: string)
    requires DistinctKeys(ps)
    ensures DistinctKeys(Put(ps, k, v))
    decreases |ps|
  {
    if ps != [] && ps[0].0 != k {
      var rest := Put(ps[1..], k, v);
      PutDistinct(ps[1..], k, v);
      assert KeySet(rest) == KeySet(ps[1..]) + {k};
      assert ps[0].0 !in KeySet(ps[1..]) by {
        forall i | 0 <= i < |ps[1..]| ensures ps[1..][i].0 != ps[0].0 {
          assert ps[1..][i] == ps[i + 1];
        }
      }
      var r := Put(ps, k, v);
      assert r == [ps[0]] + rest;
      forall i, j | 0 <= i < j < |r| ensures r[i].0 != r[j].0 {
        if i == 0 {
          assert r[j] == rest[j - 1];
          assert rest[j - 1].0 in KeySet(rest);
        } else {
          assert r[i] == rest[i - 1] && r[j] == rest[j - 1];
        }
      }
    } else if ps != [] {
      var r := Put(ps, k, v);
      forall i, j | 0 <= i < j < |r| ensures r[i].0 != r[j].0 {
        assert r[j] == ps[j];
        if i > 0 {
          assert r[i] == ps[i];
        }
      }
    }
  }

  /** `Uri.EscapeDataString(key) + "=" + Uri.EscapeDataString(value)`. */
  function RenderPair(p: (string, string)): string {
    PE.Escape(p.0) + "=" + PE.Escape(p.1)
  }

  /** A pair whose key and value need no escaping renders as written. */
  lemma RenderPlainPair(p: (string, string))
    requires forall i :: 0 <= i < |p.0| ==> PE.IsUnreserved(p.0[i])
    requires forall i :: 0 <= i < |p.1| ==> PE.IsUnreserved(p.1[i])
    ensures RenderPair(p) == p.0 + "=" + p.1
  {
  }

  /** A pair with a plain key renders as the key, `=` and the escaped
      value. */
  lemma RenderPlainKey(k: string, v: string)
    requires forall i :: 0 <= i < |k| ==> PE.IsUnreserved(k[i])
    ensures RenderPair((k, v)) == k + "=" + PE.Escape(v)
  {
  }

  /** Every pair rendered on its own, in order. */
  function RenderPairs(ps: Params): (r: seq<string>)
    ensures |r| == |ps|
    ensures forall i :: 0 <= i < |ps| ==> r[i] == RenderPair(ps[i])
  {
    seq(|ps|, i requires 0 <= i < |ps| => RenderPair(ps[i]))
  }

  /** `string.Join("&", pairs)`. */
  function Render(ps: Params): string {
    Text.Join(RenderPairs(ps), "&")
  }

  /** Reads back one `key=value` piece. */
  function ParsePair(s: string): Option<(string, string)> {
    var parts := Text.Split(s, '=');
    if |parts| != 2 then None
    else
      match (PE.Unescape(parts[0]), PE.Unescape(parts[1]))
      case (Some(k), Some(v)) => Some((k, v))
      case _ => None
  }

  function ParsePairs(xs: seq<string>): Option<Params> {
    if xs == [] then Some([])
    else
      var head := ParsePair(xs[0]);
      var tail := ParsePairs(xs[1..]);
      if head.Some? && tail.Some? then Some([head.value] + tail.value) else None
  }

  /** Reads back a query string: the empty string holds no parameters,
      anything else is split on `&` and then on `=`. */
  function Parse(q: string): Option<Params> {
    if q == "" then Some([]) else ParsePairs(Text.Split(q, '&'))
  }

  /** `url`, then `?` and the rendered parameters when there are any
      (`queryParams.Count > 0 ? $"{url}?{query}" : url`). The part after the
      `?` reads back as exactly the parameters. */
  function AppendQuery(url: string, ps: Params): (r: string)
    ensures ps == [] ==> r == url
    ensures ps != [] ==> |r| > |url| && r[..|url| + 1] == url + "?"
    ensures ps != [] ==> Parse(r[|url| + 1..]) == Some(ps)
    ensures ps != [] ==> r == url + "?" + Render(ps)
  {
    var pairs := RenderPairs(ps);
    if |pairs| > 0 then
      var r := url + "?" + Text.Join(pairs, "&");
      assert r[|url| + 1..] == Render(ps);
      ParseRender(ps);
      r
    else url
  }

  /** Rendering distributes over putting two dictionaries one after the
      other. */
  lemma RenderPairsAppend(ps: Params, qs: Params)
    ensures RenderPairs(ps + qs) == RenderPairs(ps) + RenderPairs(qs)
  {
    var l := RenderPairs(ps + qs);
    var r := RenderPairs(ps) + RenderPairs(qs);
    assert |l| == |r|;
    assert forall i :: 0 <= i < |l| ==> l[i] == r[i] by {
      forall i | 0 <= i < |l| ensures l[i] == r[i] {
        RenderedAt(ps, qs, i);
      }
    }
  }

  /** The rendering of a two-entry dictionary written out in full. */
  lemma RenderPairsOfTwo(p: (string, string), q: (string, string))
    ensures RenderPairs([p, q]) == [RenderPair(p), RenderPair(q)]
  {
  }

  /** One piece of the rendering of two dictionaries one after the other. */
  lemma RenderedAt(ps: Params, qs: Params, i: int)
    requires 0 <= i < |ps| + |qs|
    ensures RenderPairs(ps + qs)[i] == (RenderPairs(ps) + RenderPairs(qs))[i]
  {
    if i < |ps| {
      assert (ps + qs)[i] == ps[i];
    } else {
      assert (ps + qs)[i] == qs[i - |ps|];
    }
  }

  // ---------------------------------------------------------------------
  // Because escaping never emits `&` or `=`, the query splits back into
  // exactly the pairs it was built from.

  lemma ParseRenderPair(p: (string, string))
    ensures ParsePair(RenderPair(p)) == Some(p)
  {
    var a := PE.Escape(p.0);
    var b := PE.Escape(p.1);
    assert RenderPair(p) == a + ['='] + b;
    Text.SplitAtSeparator(a, b, '=');
    Text.SplitWithoutSeparator(b, '=');
    PE.UnescapeEscape(p.0);
    PE.UnescapeEscape(p.1);
  }

  lemma {:induction false} ParseRenderPairs(ps: Params)
    ensures ParsePairs(RenderPairs(ps)) == Some(ps)
    decreases |ps|
  {
    if ps != [] {
      var xs := RenderPairs(ps);
      assert xs[1..] == RenderPairs(ps[1..]);
      ParseRenderPair(ps[0]);
      ParseRenderPairs(ps[1..]);
      assert [ps[0]] + ps[1..] == ps;
    }
  }

  lemma RenderedPairHasNoAmpersand(p: (string, string))
    ensures '&' !in RenderPair(p)
  {
    assert RenderPair(p) == PE.Escape(p.0) + ['='] + PE.Escape(p.1);
  }

  /** Rendering is empty exactly when there are no parameters. */
  lemma RenderEmpty(ps: Params)
    ensures Render(ps) == "" <==> ps == []
  {
    if ps != [] {
      var xs := RenderPairs(ps);
      assert '=' in xs[0] by {
        assert xs[0] == PE.Escape(ps[0].0) + ['='] + PE.Escape(ps[0].1);
        assert xs[0][|PE.Escape(ps[0].0)|] == '=';
      }
      if |xs| > 1 {
        assert Render(ps) == xs[0] + "&" + Text.Join(xs[1..], "&");
      }
    }
  }

  /** Parsing a rendered query gives back the parameters, in order. */
  lemma ParseRender(ps: Params)
    ensures Parse(Render(ps)) == Some(ps)
  {
    RenderEmpty(ps);
    if ps != [] {
      var xs := RenderPairs(ps);
      forall i | 0 <= i < |xs| ensures '&' !in xs[i] {
        RenderedPairHasNoAmpersand(ps[i]);
      }
      Text.SplitJoin(xs, '&');
      ParseRenderPairs(ps);
    }
  }

  /** Rendering is injective: different parameter lists give different queries. */
  lemma RenderInjective(ps: Params, qs: Params)
    requires Render(ps) == Render(qs)
    ensures ps == qs
  {
    ParseRender(ps);
    ParseRender(qs);
  }
  // ---------------------------------------------------------------------
  // Building dictionaries.

  /** A value `!string.IsNullOrEmpty` lets through, if any. */
  function NonEmpty(s: Option<string>): Option<string> {
    if s.Some? && s.value != "" then s else None
  }

  /** `if (v != null) d[k] = v;`. */
  function PutIfPresent(ps: Params, k: string, v: Option<string>): (r: Params)
    ensures KeySet(r) == KeySet(ps) + (if v.Some? then {k} else {})
    ensures forall k' :: Lookup(r, k') == if k' == k && v.Some? then v else Lookup(ps, k')
  {
    match v
    case None => ps
    case Some(x) =>
      var r := Put(ps, k, x);
      assert forall k' :: Lookup(r, k') == if k' == k then Some(x) else Lookup(ps, k') by {
        forall k' { PutLookup(ps, k, x, k'); }
      }
      r
  }

  /** Two optional entries added in turn to a dictionary holding neither
      key: the rest of the dictionary is left as it was. */
  function PutBothIfPresent(ps: Params, j: string, u: Option<string>, k: string, v: Option<string>): (r: Params)
    requires j != k && j !in KeySet(ps) && k !in KeySet(ps)
    ensures KeySet(r) == KeySet(ps) + (if u.Some? then {j} else {}) + (if v.Some? then {k} else {})
    ensures forall k' :: k' != j && k' != k ==> Lookup(r, k') == Lookup(ps, k')
    ensures Lookup(r, j) == u && Lookup(r, k) == v
  {
    PutIfPresent(PutIfPresent(ps, j, u), k, v)
  }

  lemma KeySetOfOne(p: (string, string))
    ensures KeySet([p]) == {p.0}
  {
    KeySetCons(p, []);
    assert [p] == [p] + [];
  }

  lemma KeySetOfTwo(p: (string, string), q: (string, string))
    ensures KeySet([p, q]) == {p.0, q.0}
  {
    KeySetOfOne(q);
    KeySetCons(p, [q]);
    assert [p, q] == [p] + [q];
  }

  lemma KeySetOfThree(p: (string, string), q: (string, string), s: (string, string))
    ensures KeySet([p, q, s]) == {p.0, q.0, s.0}
  {
    KeySetOfTwo(q, s);
    KeySetCons(p, [q, s]);
    assert [p, q, s] == [p] + [q, s];
  }

  /** Reading a three-entry dictionary written out in full. */
  lemma LookupOfThree(p: (string, string), q: (string, string), s: (string, string), k: string)
    ensures Lookup([p, q, s], k)
            == if k == p.0 then Some(p.1) else if k == q.0 then Some(q.1) else if k == s.0 then Some(s.1) else None
  {
    var ps := [p, q, s];
    assert ps[1..] == [q, s] && [q, s][1..] == [s] && [s][1..] == [];
    if k != p.0 {
      assert Lookup(ps, k) == Lookup([q, s], k);
      if k != q.0 {
        assert Lookup([q, s], k) == Lookup([s], k);
        if k != s.0 {
          assert Lookup([s], k) == Lookup([], k);
        }
      }
    }
  }
}

=== FILE: rate_limiter.dfy ===
/** The per-key sliding-window limiter of `ApiKeyMiddleware`: every key owns
    two lists of request times, one pruned to the last minute and one to the
    last hour, and a request is admitted only while both lists are below
    their ceilings. The clock is an integer count of 100-nanosecond ticks,
    as `DateTime` counts them, passed in by the caller. */
module RateLimiter {

  /** One minute and one hour in ticks. */
  const MinuteTicks: int := 600_000_000
  const HourTicks: int := 36_000_000_000

  /** `RateLimitInfo`: the admitted request times of one key, oldest first. */
  datatype RateLimitInfo = RateLimitInfo(requestsPerMinute: seq<int>, requestsPerHour: seq<int>)

  /** The state `GetOrAdd` creates for a key seen for the first time. */
  const Fresh := RateLimitInfo([], [])

  /** The limiter's dictionary from API key to its request times. */
  type Store = map<string, RateLimitInfo>

  /** `RateLimitOptions`. */
  datatype RateLimitOptions = RateLimitOptions(requestsPerMinute: int, requestsPerHour: int, enabled: bool)

  /** 100 per minute, 1000 per hour, enabled. */
  const DefaultRateLimit := RateLimitOptions(100, 1000, true)

  /** `list.RemoveAll(t => t < cutoff)`: the entries at or after the cutoff,
      in their original order. An entry exactly at the cutoff survives. */
  function KeepSince(ts: seq<int>, cutoff: int): (r: seq<int>)
    ensures |r| <= |ts|
    ensures forall i :: 0 <= i < |r| ==> r[i] >= cutoff
    ensures forall t :: t in r <==> t in ts && t >= cutoff
    ensures (forall i :: 0 <= i < |ts| ==> ts[i] >= cutoff) ==> r == ts
  {
    if ts == [] then []
    else
      var rest := KeepSince(ts[1..], cutoff);
      assert ts == [ts[0]] + ts[1..];
      if ts[0] < cutoff then rest else [ts[0]] + rest
  }

  /** `CleanupOldRequests(now)`: drops minute entries older than a minute
      and hour entries older than an hour. */
  function Cleanup(info: RateLimitInfo, now: int): (r: RateLimitInfo)
    ensures r.requestsPerMinute == KeepSince(info.requestsPerMinute, now - MinuteTicks)
    ensures r.requestsPerHour == KeepSince(info.requestsPerHour, now - HourTicks)
  {
    RateLimitInfo(KeepSince(info.requestsPerMinute, now - MinuteTicks),
                  KeepSince(info.requestsPerHour, now - HourTicks))
  }

  /** `_rateLimitStore.GetOrAdd(key, _ => new RateLimitInfo())`, read side. */
  function InfoOf(store: Store, key: string): RateLimitInfo {
    if key in store then store[key] else Fresh
  }

  /** The outcome of one `CheckRateLimit` call and the store after it. */
  datatype Checked = Checked(admitted: bool, store: Store)

  /** `CheckRateLimit(key)` at time `now`. The key's entry is created if
      missing and pruned whatever the verdict; it is then rejected when the
      minute count has reached its ceiling or else the hour count has, and
      otherwise `now` is appended once to both lists. No other key's entry
      changes. */
  function CheckRateLimit(store: Store, key: string, now: int, limits: RateLimitOptions): (r: Checked)
    ensures key in r.store && r.store.Keys == store.Keys + {key}
    ensures forall k :: k in store && k != key ==> r.store[k] == store[k]
    ensures var pruned := Cleanup(InfoOf(store, key), now);
      && (r.admitted <==> |pruned.requestsPerMinute| < limits.requestsPerMinute
                          && |pruned.requestsPerHour| < limits.requestsPerHour)
      && (!r.admitted ==> r.store[key] == pruned)
      && (r.admitted ==> r.store[key] == RateLimitInfo(pruned.requestsPerMinute + [now],
                                                        pruned.requestsPerHour + [now]))
  {
    var info := Cleanup(InfoOf(store, key), now);
    if |info.requestsPerMinute| >= limits.requestsPerMinute then Checked(false, store[key := info])
    else if |info.requestsPerHour| >= limits.requestsPerHour then Checked(false, store[key := info])
    else Checked(true, store[key := RateLimitInfo(info.requestsPerMinute + [now], info.requestsPerHour + [now])])
  }

  // ---------------------------------------------------------------------
  // Pruning.

  /** Pruning again with a later cutoff is the same as pruning once with it. */
  lemma {:induction false} KeepSinceTwice(ts: seq<int>, c1: int, c2: int)
    requires c1 <= c2
    ensures KeepSince(KeepSince(ts, c1), c2) == KeepSince(ts, c2)
    decreases |ts|
  {
    if ts != [] {
      KeepSinceTwice(ts[1..], c1, c2);
    }
  }

  /** A time appended at or after the cutoff stays at the end. */
  lemma {:induction false} KeepSinceAppend(ts: seq<int>, t: int, cutoff: int)
    requires t >= cutoff
    ensures KeepSince(ts + [t], cutoff) == KeepSince(ts, cutoff) + [t]
    decreases |ts|
  {
    if ts == [] {
      assert [] + [t] == [t];
    } else {
      assert (ts + [t])[1..] == ts[1..] + [t];
      KeepSinceAppend(ts[1..], t, cutoff);
    }
  }

  /** Pruning works entry by entry: pruning a concatenation prunes each
      part and keeps them in the same order. */
  lemma {:induction false} KeepSinceSplits(a: seq<int>, b: seq<int>, cutoff: int)
    ensures KeepSince(a + b, cutoff) == KeepSince(a, cutoff) + KeepSince(b, cutoff)
    decreases |a|
  {
    if a == [] {
      assert a + b == b;
    } else {
      assert (a + b)[1..] == a[1..] + b;
      KeepSinceSplits(a[1..], b, cutoff);
    }
  }

  /** A single entry survives exactly when it is at or after the cutoff. */
  lemma KeepSinceOne(t: int, cutoff: int)
    ensures KeepSince([t], cutoff) == if t >= cutoff then [t] else []
  {
  }

  /** The number of entries at or after the cutoff. */
  function CountSince(ts: seq<int>, cutoff: int): nat {
    if ts == [] then 0 else (if ts[0] >= cutoff then 1 else 0) + CountSince(ts[1..], cutoff)
  }

  /** Pruning keeps exactly the entries the window counts. */
  lemma {:induction false} KeepSinceCounts(ts: seq<int>, cutoff: int)
    ensures |KeepSince(ts, cutoff)| == CountSince(ts, cutoff)
    decreases |ts|
  {
    if ts != [] {
      KeepSinceCounts(ts[1..], cutoff);
    }
  }

  // ---------------------------------------------------------------------
  // The ceilings hold.

  /** Both lists of a key are within their ceilings. */
  predicate WithinCeilings(info: RateLimitInfo, limits: RateLimitOptions) {
    |info.requestsPerMinute| <= limits.requestsPerMinute && |info.requestsPerHour| <= limits.requestsPerHour
  }

  predicate StoreWithinCeilings(store: Store, limits: RateLimitOptions) {
    forall k :: k in store ==> WithinCeilings(store[k], limits)
  }

  /** A check never pushes any key past its ceilings. */
  lemma CheckKeepsCeilings(store: Store, key: string, now: int, limits: RateLimitOptions)
    requires limits.requestsPerMinute >= 0 && limits.requestsPerHour >= 0
    requires StoreWithinCeilings(store, limits)
    ensures StoreWithinCeilings(CheckRateLimit(store, key, now, limits).store, limits)
  {
    var r := CheckRateLimit(store, key, now, limits);
    forall k | k in r.store ensures WithinCeilings(r.store[k], limits) {
      if k == key {
        assert WithinCeilings(InfoOf(store, key), limits);
      }
    }
  }

  /** Once a key's lists are within their ceilings, a check rejects exactly
      when a pruned list is full. */
  lemma RejectsAtCeiling(store: Store, key: string, now: int, limits: RateLimitOptions)
    requires limits.requestsPerMinute >= 0 && limits.requestsPerHour >= 0
    requires StoreWithinCeilings(store, limits)
    ensures var pruned := Cleanup(InfoOf(store, key), now);
      !CheckRateLimit(store, key, now, limits).admitted
      <==> |pruned.requestsPerMinute| == limits.requestsPerMinute || |pruned.requestsPerHour| == limits.requestsPerHour
  {
    if key in store {
      assert WithinCeilings(store[key], limits);
    }
  }

  /** An admitted request adds exactly one entry to each window. */
  lemma AdmissionCountsOnce(store: Store, key: string, now: int, limits: RateLimitOptions)
    requires CheckRateLimit(store, key, now, limits).admitted
    ensures var pruned := Cleanup(InfoOf(store, key), now);
      var after := CheckRateLimit(store, key, now, limits).store[key];
      |after.requestsPerMinute| == |pruned.requestsPerMinute| + 1
      && |after.requestsPerHour| == |pruned.requestsPerHour| + 1
      && after.requestsPerMinute[|after.requestsPerMinute| - 1] == now
      && after.requestsPerHour[|after.requestsPerHour| - 1] == now
  {
  }

  /** The window slides: a key whose every entry is more than an hour old
      is admitted again whenever the ceilings are positive. */
  lemma OldEntriesDoNotCount(store: Store, key: string, now: int, limits: RateLimitOptions)
    requires limits.requestsPerMinute > 0 && limits.requestsPerHour > 0
    requires forall i :: 0 <= i < |InfoOf(store, key).requestsPerMinute| ==> InfoOf(store, key).requestsPerMinute[i] < now - HourTicks
    requires forall i :: 0 <= i < |InfoOf(store, key).requestsPerHour| ==> InfoOf(store, key).requestsPerHour[i] < now - HourTicks
    ensures CheckRateLimit(store, key, now, limits).admitted
  {
    KeepSinceNone(InfoOf(store, key).requestsPerMinute, now - MinuteTicks);
    KeepSinceNone(InfoOf(store, key).requestsPerHour, now - HourTicks);
  }

  /** Pruning removes every entry older than the cutoff. */
  lemma {:induction false} KeepSinceNone(ts: seq<int>, cutoff: int)
    requires forall i :: 0 <= i < |ts| ==> ts[i] < cutoff
    ensures KeepSince(ts, cutoff) == []
    decreases |ts|
  {
    if ts != [] {
      KeepSinceNone(ts[1..], cutoff);
    }
  }

  /** A check against a key whose entries all carry the current instant
      prunes nothing: it is admitted exactly while the minute list is below
      its ceiling, and then appends the instant to both lists. */
  lemma CheckAtSameInstant(store: Store, key: string, now: int, limits: RateLimitOptions, ts: seq<int>)
    requires InfoOf(store, key) == RateLimitInfo(ts, ts)
    requires forall i :: 0 <= i < |ts| ==> ts[i] == now
    requires |ts| < limits.requestsPerHour
    ensures var c := CheckRateLimit(store, key, now, limits);
      (c.admitted <==> |ts| < limits.requestsPerMinute)
      && (c.admitted ==> InfoOf(c.store, key) == RateLimitInfo(ts + [now], ts + [now]))
  {
    assert KeepSince(ts, now - MinuteTicks) == ts;
    assert KeepSince(ts, now - HourTicks) == ts;
  }

  /** With a ceiling of two per minute, three requests in the same instant
      are admitted, admitted, rejected. */
  lemma ThirdRequestRejected(now: int)
    ensures var limits := RateLimitOptions(2, 1000, true);
      var c1 := CheckRateLimit(map[], "k", now, limits);
      var c2 := CheckRateLimit(c1.store, "k", now, limits);
      var c3 := CheckRateLimit(c2.store, "k", now, limits);
      c1.admitted && c2.admitted && !c3.admitted
  {
    var limits := RateLimitOptions(2, 1000, true);
    CheckAtSameInstant(map[], "k", now, limits, []);
    var c1 := CheckRateLimit(map[], "k", now, limits);
    assert [] + [now] == [now];
    CheckAtSameInstant(c1.store, "k", now, limits, [now]);
    var c2 := CheckRateLimit(c1.store, "k", now, limits);
    assert [now] + [now] == [now, now];
    CheckAtSameInstant(c2.store, "k", now, limits, [now, now]);
  }
}

=== FILE: requests.dfy ===
/** What a controller action decides: either a 400 answer with a message, or
    the upstream call it hands to `ISteamApiService`. Also the checks the
    controllers share: the Steam ID path segment and comma-separated ID
    lists validated entry by entry. */
module Requests {
  import opened Wrappers
  import Text
  import Numbers
  import Query
  import SteamUrls

  /** `GetAsync(interface, method, version, parameters)` or
      `GetStoreAsync(endpoint, parameters)`. A null dictionary is the empty
      one: both builders treat them alike. */
  datatype Upstream =
    | Versioned(interfaceName: string, methodName: string, version: string, params: Query.Params)
    | StoreCall(endpoint: string, params: Query.Params)

  /** `BadRequest(message)`; the upstream call whose response becomes the
      200 answer; or `StatusCode(500, message)`, which the controller's
      `catch` answers when building the call throws before anything is
      sent. */
  datatype Answer =
    | BadRequest(message: string)
    | Forward(call: Upstream)
    | ServerError(message: string)

  /** The URL the service requests for a call. */
  function UrlOf(o: SteamUrls.ServiceOptions, c: Upstream): string {
    match c
    case Versioned(i, m, v, ps) => SteamUrls.BuildSteamApiUrl(o, i, m, v, Some(ps))
    case StoreCall(e, ps) => SteamUrls.BuildStoreApiUrl(o, e, Some(ps))
  }

  /** Whatever a controller forwards reaches Steam intact: the query of a
      versioned call reads back as the key, the format flag and the
      controller's dictionary, and a store call's as the dictionary alone. */
  lemma ForwardedQueryReadsBack(o: SteamUrls.ServiceOptions, c: Upstream)
    ensures c.Versioned? ==>
      var p := SteamUrls.VersionedPath(o, c.interfaceName, c.methodName, c.version);
      UrlOf(o, c)[..|p| + 1] == p + "?"
      && Query.Parse(UrlOf(o, c)[|p| + 1..]) == Some(SteamUrls.FixedParams(o) + c.params)
    ensures c.StoreCall? && c.params != [] ==>
      var p := SteamUrls.StorePath(o, c.endpoint);
      UrlOf(o, c)[..|p| + 1] == p + "?" && Query.Parse(UrlOf(o, c)[|p| + 1..]) == Some(c.params)
  {
  }

  /** The dictionary holds `key` as `n.ToString()`. */
  predicate HoldsNumber(ps: Query.Params, key: string, n: int) {
    Query.Lookup(ps, key) == Some(Numbers.IntToString(n))
  }

  /** `n.ToString()` is read back by any integer parser as `n`. */
  lemma Formatted(n: int)
    ensures Numbers.TryParseInteger(Numbers.IntToString(n)) == Some(n)
  {
    Numbers.ParsePadded("", n, "");
    Numbers.Unpadded(Numbers.IntToString(n));
  }

  /** A number a controller puts in the dictionary reaches Steam as text
      that parses back to the same number. */
  lemma HeldNumberReadsBack(ps: Query.Params, key: string, n: int)
    requires HoldsNumber(ps, key, n)
    ensures Query.Lookup(ps, key).Some? && Numbers.TryParseInteger(Query.Lookup(ps, key).value) == Some(n)
  {
    Formatted(n);
  }

  /** `n.ToString()` is a single list entry as it stands: not blank, no
      white space to trim and no comma. */
  lemma NumberText(n: int)
    ensures var t := Numbers.IntToString(n);
      t != "" && !Text.IsBlank(t) && Text.Trim(t) == t && ',' !in t
  {
    var t := Numbers.IntToString(n);
    assert forall j :: 0 <= j < |t| ==> !Text.IsWhiteSpace(t[j]) && t[j] != ',' by {
      forall j | 0 <= j < |t| ensures !Text.IsWhiteSpace(t[j]) && t[j] != ',' {
        if n < 0 && j > 0 {
          assert t[1..][j - 1] == t[j];
        } else if n >= 0 {
          assert Numbers.IsDigit(t[j]);
        }
      }
    }
    Text.TrimOfNonWhite(t);
  }

  // ---------------------------------------------------------------------
  // Steam IDs.

  /** The route-segment check: empty is "required", anything `ulong.TryParse`
      rejects (no trimming beyond what the parser itself skips) is
      "Invalid Steam ID format", and only a 64-bit unsigned number passes. */
  function SteamIdError(steamId: string): (r: Option<string>)
    ensures steamId == "" ==> r == Some("Steam ID is required")
    ensures steamId != "" && !Numbers.IsUInt64(steamId) ==> r == Some("Invalid Steam ID format")
    ensures r.None? <==> Numbers.IsUInt64(steamId)
  {
    if steamId == "" then Some("Steam ID is required")
    else if !Numbers.IsUInt64(steamId) then Some("Invalid Steam ID format")
    else None
  }

  /** An entry of a comma-separated Steam ID list: a `ulong` once trimmed. */
  predicate IsSteamIdEntry(s: string) {
    Numbers.IsUInt64(Text.Trim(s))
  }

  /** An entry of an app ID filter: an `int` once trimmed. */
  predicate IsAppIdEntry(s: string) {
    Numbers.TryParseInt32(Text.Trim(s)).Some?
  }

  /** An entry of a store app ID list: a positive `int` once trimmed. */
  predicate IsPositiveAppIdEntry(s: string) {
    var n := Numbers.TryParseInt32(Text.Trim(s));
    n.Some? && n.value > 0
  }

  // ---------------------------------------------------------------------
  // Entry-by-entry validation.

  /** `i` is where a `foreach` that returns on the first bad entry stops. */
  predicate IsFirstInvalid(entries: seq<string>, valid: string -> bool, i: int) {
    0 <= i < |entries| && !valid(entries[i]) && forall j :: 0 <= j < i ==> valid(entries[j])
  }

  /** The position of the first entry failing `valid`, if any. */
  function FirstInvalid(entries: seq<string>, valid: string -> bool): (r: Option<nat>)
    ensures r.None? <==> forall i :: 0 <= i < |entries| ==> valid(entries[i])
    ensures r.Some? ==> IsFirstInvalid(entries, valid, r.value)
    decreases |entries|
  {
    if entries == [] then None
    else if !valid(entries[0]) then Some(0)
    else
      match FirstInvalid(entries[1..], valid)
      case None =>
        assert forall i :: 0 <= i < |entries| ==> valid(entries[i]) by {
          forall i | 0 <= i < |entries| ensures valid(entries[i]) {
            if i > 0 {
              assert entries[i] == entries[1..][i - 1];
            }
          }
        }
        None
      case Some(k) =>
        assert entries[k + 1] == entries[1..][k];
        assert forall j :: 0 <= j < k + 1 ==> valid(entries[j]) by {
          forall j | 0 <= j < k + 1 ensures valid(entries[j]) {
            if j > 0 {
              assert entries[j] == entries[1..][j - 1];
            }
          }
        }
        Some(k + 1)
  }

  /** The loop `foreach (var e in entries) if (!valid(e)) return
      BadRequest(prefix + e);`: nothing when every entry passes, otherwise
      the prefix followed by the first failing entry as written. */
  function EntryError(entries: seq<string>, valid: string -> bool, prefix: string): (r: Option<string>)
    ensures r.None? <==> forall i :: 0 <= i < |entries| ==> valid(entries[i])
    ensures r.Some? ==> exists i :: IsFirstInvalid(entries, valid, i) && r.value == prefix + entries[i]
  {
    match FirstInvalid(entries, valid)
    case None => None
    case Some(i) => Some(prefix + entries[i])
  }

  /** The most Steam IDs one summaries request may name. */
  const MaxSteamIds := 100

  /** The Steam ID list check of the summaries and bans actions: empty is
      "required", a list of only commas is "at least one", more than
      `MaxSteamIds` entries (when `capped`) is too many, and then every
      entry must be a `ulong` once trimmed, the first one that is not being
      named as written. */
  function SteamIdListError(steamIds: string, capped: bool): (r: Option<string>)
    ensures steamIds == "" ==> r == Some("Steam IDs are required")
    ensures steamIds != "" && |Text.SplitRemoveEmpty(steamIds, ',')| == 0
            ==> r == Some("At least one Steam ID is required")
    ensures steamIds != "" && capped && |Text.SplitRemoveEmpty(steamIds, ',')| > MaxSteamIds
            ==> r == Some("Maximum of 100 Steam IDs allowed per request")
    ensures var ids := Text.SplitRemoveEmpty(steamIds, ',');
      r.None? <==> (steamIds != "" && |ids| > 0 && (capped ==> |ids| <= MaxSteamIds)
                    && forall i :: 0 <= i < |ids| ==> IsSteamIdEntry(ids[i]))
    ensures var ids := Text.SplitRemoveEmpty(steamIds, ',');
      (steamIds != "" && |ids| > 0 && (capped ==> |ids| <= MaxSteamIds) && r.Some?)
      ==> exists i :: IsFirstInvalid(ids, IsSteamIdEntry, i) && r.value == "Invalid Steam ID format: " + ids[i]
  {
    var ids := Text.SplitRemoveEmpty(steamIds, ',');
    if steamIds == "" then Some("Steam IDs are required")
    else if |ids| == 0 then Some("At least one Steam ID is required")
    else if capped && |ids| > MaxSteamIds then Some("Maximum of 100 Steam IDs allowed per request")
    else EntryError(ids, IsSteamIdEntry, "Invalid Steam ID format: ")
  }

  /** A list joined from well-formed entries passes the list check exactly
      when it respects the cap. */
  lemma JoinedSteamIdsPass(xs: seq<string>, capped: bool)
    requires |xs| >= 1
    requires forall i :: 0 <= i < |xs| ==> xs[i] != "" && ',' !in xs[i] && IsSteamIdEntry(xs[i])
    ensures SteamIdListError(Text.Join(xs, ","), capped).None? <==> (capped ==> |xs| <= MaxSteamIds)
  {
    Text.SplitRemoveEmptyJoin(xs, ',');
    assert Text.Join(xs, ",") != "" by {
      JoinStartsWithFirst(xs, ",");
    }
  }

  /** A join starts with its first piece. */
  lemma JoinStartsWithFirst(xs: seq<string>, sep: string)
    requires |xs| >= 1
    ensures |Text.Join(xs, sep)| >= |xs[0]| && Text.Join(xs, sep)[..|xs[0]|] == xs[0]
  {
    if |xs| > 1 {
      assert Text.Join(xs, sep) == xs[0] + (sep + Text.Join(xs[1..], sep));
    }
  }

  /** Only commas is not an empty parameter but still holds no ID. */
  lemma OnlyCommasHoldNoSteamId(steamIds: string, capped: bool)
    requires steamIds != "" && forall i :: 0 <= i < |steamIds| ==> steamIds[i] == ','
    ensures SteamIdListError(steamIds, capped) == Some("At least one Steam ID is required")
  {
    Text.OnlySeparatorsSplitToNothing(steamIds, ',');
  }
}

=== FILE: steam_apps.dfy ===
/** `SteamAppsController`: the app list in three versions, servers at an
    address, and the up-to-date check. */
module SteamApps {
  import opened Wrappers
  import Text
  import Numbers
  import Query
  import SteamUrls
  import opened Requests

  /** `GET api/steamapps/list` and its `list/v2`, `list/v1` variants: the
      same method in the given version, without parameters. */
  function GetAppListIn(version: string): (r: Answer)
    ensures r.Forward? && r.call.Versioned? && r.call.params == []
    ensures r.call.interfaceName == "ISteamApps" && r.call.methodName == "GetAppList" && r.call.version == version
  {
    Forward(Versioned("ISteamApps", "GetAppList", version, []))
  }

  function GetAppList(): Answer { GetAppListIn("v0002") }
  function GetAppListV2(): Answer { GetAppListIn("v2") }
  function GetAppListV1(): Answer { GetAppListIn("v1") }

  /** The three list endpoints ask for the bare key-and-format query and
      differ only in the version segment of the path. */
  lemma AppListUrls(o: SteamUrls.ServiceOptions)
    ensures forall version :: UrlOf(o, GetAppListIn(version).call)
              == SteamUrls.VersionedPath(o, "ISteamApps", "GetAppList", version)
                 + "?" + Query.Render(SteamUrls.FixedParams(o))
    ensures UrlOf(o, GetAppList().call) == UrlOf(o, GetAppListIn("v0002").call)
    ensures UrlOf(o, GetAppListV2().call) == UrlOf(o, GetAppListIn("v2").call)
    ensures UrlOf(o, GetAppListV1().call) == UrlOf(o, GetAppListIn("v1").call)
  {
    forall version
      ensures UrlOf(o, GetAppListIn(version).call)
           == SteamUrls.VersionedPath(o, "ISteamApps", "GetAppList", version) + "?" + Query.Render(SteamUrls.FixedParams(o))
    {
      SteamUrls.VersionedQueryRenders(o, []);
      assert SteamUrls.FixedParams(o) + [] == SteamUrls.FixedParams(o);
    }
  }

  // ---------------------------------------------------------------------
  // IP addresses.

  /** One dotted part: `int.TryParse` accepts it and the value is 0..255. */
  predicate IsOctet(part: string) {
    var n := Numbers.TryParseInt32(part);
    n.Some? && 0 <= n.value <= 255
  }

  /** `IsValidIpAddress`: not blank, and either exactly four dot-separated
      parts that are all octets, or (with any other number of dots) a colon
      and at most eight colon-separated parts. */
  function IsValidIpAddress(ip: string): (r: bool)
    ensures Text.IsBlank(ip) ==> !r
    ensures var parts := Text.Split(ip, '.');
      !Text.IsBlank(ip) && |parts| == 4 ==> (r <==> forall i :: 0 <= i < |parts| ==> IsOctet(parts[i]))
    ensures var parts := Text.Split(ip, '.');
      !Text.IsBlank(ip) && |parts| != 4 ==> (r <==> ':' in ip && |Text.Split(ip, ':')| <= 8)
  {
    if Text.IsBlank(ip) then false
    else
      var parts := Text.Split(ip, '.');
      if |parts| == 4 then AllOctets(parts)
      else if ':' in ip then |Text.Split(ip, ':')| <= 8
      else false
  }

  /** The `foreach` over the parts, stopping at the first bad one. */
  function AllOctets(parts: seq<string>): (r: bool)
    ensures r <==> forall i :: 0 <= i < |parts| ==> IsOctet(parts[i])
  {
    FirstInvalid(parts, IsOctet).None?
  }

  /** `a.b.c.d` in decimal. */
  function DottedQuad(a: int, b: int, c: int, d: int): string {
    Text.Join([Numbers.IntToString(a), Numbers.IntToString(b), Numbers.IntToString(c), Numbers.IntToString(d)], ".")
  }

  /** Every address written as four numbers 0..255 with dots is accepted. */
  lemma DottedQuadAccepted(a: int, b: int, c: int, d: int)
    requires 0 <= a <= 255 && 0 <= b <= 255 && 0 <= c <= 255 && 0 <= d <= 255
    ensures IsValidIpAddress(DottedQuad(a, b, c, d))
  {
    var p0, p1, p2, p3 := Numbers.IntToString(a), Numbers.IntToString(b), Numbers.IntToString(c), Numbers.IntToString(d);
    assert IsOctet(p0) && '.' !in p0 && |p0| > 0 && !Text.IsWhiteSpace(p0[0]) by { OctetText(a); }
    assert IsOctet(p1) && '.' !in p1 by { OctetText(b); }
    assert IsOctet(p2) && '.' !in p2 by { OctetText(c); }
    assert IsOctet(p3) && '.' !in p3 by { OctetText(d); }
    FourOctetsAccepted(p0, p1, p2, p3);
  }

  /** Four dot-free octets joined with dots make an accepted address. */
  lemma FourOctetsAccepted(p0: string, p1: string, p2: string, p3: string)
    requires IsOctet(p0) && IsOctet(p1) && IsOctet(p2) && IsOctet(p3)
    requires '.' !in p0 && '.' !in p1 && '.' !in p2 && '.' !in p3
    requires |p0| > 0 && !Text.IsWhiteSpace(p0[0])
    ensures IsValidIpAddress(Text.Join([p0, p1, p2, p3], "."))
  {
    var parts := [p0, p1, p2, p3];
    var ip := Text.Join(parts, ".");
    assert Text.Split(ip, '.') == parts by {
      assert forall i :: 0 <= i < |parts| ==> '.' !in parts[i] by {
        forall i | 0 <= i < |parts| ensures '.' !in parts[i] {
          if i == 0 { assert parts[i] == p0; }
          else if i == 1 { assert parts[i] == p1; }
          else if i == 2 { assert parts[i] == p2; }
          else { assert parts[i] == p3; }
        }
      }
      Text.SplitJoin(parts, '.');
    }
    assert !Text.IsBlank(ip) by {
      JoinStartsWithFirst(parts, ".");
      assert ip[0] == parts[0][0];
    }
    assert AllOctets(parts) by {
      forall i | 0 <= i < |parts| ensures IsOctet(parts[i]) {
        if i == 0 { assert parts[i] == p0; }
        else if i == 1 { assert parts[i] == p1; }
        else if i == 2 { assert parts[i] == p2; }
        else { assert parts[i] == p3; }
      }
    }
  }

  /** The decimal text of a number 0..255 is an octet, has no dot and
      starts with a digit. */
  lemma OctetText(n: int)
    requires 0 <= n <= 255
    ensures IsOctet(Numbers.IntToString(n))
    ensures '.' !in Numbers.IntToString(n) && Numbers.IsDigit(Numbers.IntToString(n)[0])
  {
    Numbers.ParseFormatted(n);
    var t := Numbers.IntToString(n);
    assert forall j :: 0 <= j < |t| ==> Numbers.IsDigit(t[j]);
  }

  /** A dotted address with a first part above 255 is rejected. */
  lemma OctetOutOfRangeRejected(a: int, b: int, c: int, d: int)
    requires 255 < a <= 0x7FFF_FFFF && 0 <= b && 0 <= c && 0 <= d
    ensures !IsValidIpAddress(DottedQuad(a, b, c, d))
  {
    var parts := [Numbers.IntToString(a), Numbers.IntToString(b), Numbers.IntToString(c), Numbers.IntToString(d)];
    NoDot(a);
    NoDot(b);
    NoDot(c);
    NoDot(d);
    Text.SplitJoin(parts, '.');
    Numbers.ParseFormatted(a);
    assert !IsOctet(parts[0]);
  }

  /** The decimal text of a natural number holds no dot. */
  lemma NoDot(n: int)
    requires n >= 0
    ensures '.' !in Numbers.IntToString(n)
  {
    var t := Numbers.IntToString(n);
    assert forall j :: 0 <= j < |t| ==> Numbers.IsDigit(t[j]);
  }

  /** The colon check is loose: any non-blank text without dots that has
      a colon and at most seven of them passes, `a:b` among them. */
  lemma ColonTextAccepted()
    ensures IsValidIpAddress("a:b")
  {
    Text.SplitWithoutSeparator("a:b", '.');
    Text.SplitAtSeparator("a", "b", ':');
    Text.SplitWithoutSeparator("b", ':');
    assert "a" + [':'] + "b" == "a:b";
    assert "a:b"[1] == ':';
    assert !Text.IsWhiteSpace("a:b"[0]);
  }

  /** Three dotted parts and no colon is not an address. */
  lemma ThreePartsRejected()
    ensures !IsValidIpAddress("1.2.3")
  {
    Text.SplitAtSeparator("1", "2.3", '.');
    Text.SplitAtSeparator("2", "3", '.');
    Text.SplitWithoutSeparator("3", '.');
    assert "1" + ['.'] + "2.3" == "1.2.3";
    assert "2" + ['.'] + "3" == "2.3";
    assert forall i :: 0 <= i < |"1.2.3"| ==> "1.2.3"[i] != ':';
  }

  // ---------------------------------------------------------------------
  // The actions.

  /** `GET servers/{addr}`: an empty address is "required", one the
      address check rejects is "invalid", and any other is forwarded as the
      single `addr` parameter. */
  function GetServersAtAddress(addr: string): (r: Answer)
    ensures addr == "" ==> r == BadRequest("IP address is required")
    ensures addr != "" && !IsValidIpAddress(addr) ==> r == BadRequest("Invalid IP address format")
    ensures r.Forward? <==> IsValidIpAddress(addr)
    ensures r.Forward?
            ==> r.call.Versioned? && r.call.interfaceName == "ISteamApps"
                && r.call.methodName == "GetServersAtAddress" && r.call.version == "v0001"
                && Query.KeySet(r.call.params) == {"addr"} && Query.Lookup(r.call.params, "addr") == Some(addr)
  {
    if addr == "" then BadRequest("IP address is required")
    else if !IsValidIpAddress(addr) then BadRequest("Invalid IP address format")
    else
      Query.KeySetOfOne(("addr", addr));
      Forward(Versioned("ISteamApps", "GetServersAtAddress", "v0001", [("addr", addr)]))
  }

  /** `GET up-to-date/{appId}?version=`: the app ID is checked before the
      version, both must be positive, and both reach Steam as decimal text
      (`HoldsNumber`). */
  function UpToDateCheck(appId: Numbers.Int32, version: Numbers.Int32): (r: Answer)
    ensures appId <= 0 ==> r == BadRequest("App ID must be a positive integer")
    ensures appId > 0 && version <= 0 ==> r == BadRequest("Version must be a positive integer")
    ensures r.Forward? <==> appId > 0 && version > 0
    ensures r.Forward?
            ==> r.call.Versioned? && r.call.interfaceName == "ISteamApps"
                && r.call.methodName == "UpToDateCheck" && r.call.version == "v0001"
                && Query.KeySet(r.call.params) == {"appid", "version"}
                && HoldsNumber(r.call.params, "appid", appId) && HoldsNumber(r.call.params, "version", version)
  {
    if appId <= 0 then BadRequest("App ID must be a positive integer")
    else if version <= 0 then BadRequest("Version must be a positive integer")
    else
      var ps := [("appid", Numbers.IntToString(appId)), ("version", Numbers.IntToString(version))];
      Query.KeySetOfTwo(ps[0], ps[1]);
      Forward(Versioned("ISteamApps", "UpToDateCheck", "v0001", ps))
  }
}

=== FILE: steam_news.dfy ===
/** `SteamNewsController`: news for an app, public and authenticated. */
module SteamNews {
  import opened Wrappers
  import Numbers
  import Query
  import ClientUrls
  import opened Requests

  /** The defaults of the two news actions. */
  const DefaultCount: Numbers.Int32 := 20
  const DefaultMaxLength: Numbers.Int32 := 0

  /** The checks both news actions make, in order: a positive app ID, a
      count of 1..20, a length limit of at least 0. */
  function NewsError(appId: Numbers.Int32, count: Numbers.Int32, maxLength: Numbers.Int32): (r: Option<string>)
    ensures appId <= 0 ==> r == Some("App ID must be a positive integer")
    ensures appId > 0 && !(1 <= count <= 20) ==> r == Some("Count must be between 1 and 20")
    ensures appId > 0 && 1 <= count <= 20 && maxLength < 0 ==> r == Some("Max length must be 0 or greater")
    ensures r.None? <==> appId > 0 && 1 <= count <= 20 && maxLength >= 0
  {
    if appId <= 0 then Some("App ID must be a positive integer")
    else if count <= 0 || count > 20 then Some("Count must be between 1 and 20")
    else if maxLength < 0 then Some("Max length must be 0 or greater")
    else None
  }

  /** The three numeric entries, written out in the order the controller
      adds them. */
  function NumberEntries(appId: string, count: string, maxLength: string): (ps: Query.Params)
    ensures Query.KeySet(ps) == {"appid", "count", "maxlength"}
    ensures Query.Lookup(ps, "appid") == Some(appId)
    ensures Query.Lookup(ps, "count") == Some(count)
    ensures Query.Lookup(ps, "maxlength") == Some(maxLength)
  {
    var ps := [("appid", appId), ("count", count), ("maxlength", maxLength)];
    Query.KeySetOfThree(ps[0], ps[1], ps[2]);
    Query.LookupOfThree(ps[0], ps[1], ps[2], "appid");
    Query.LookupOfThree(ps[0], ps[1], ps[2], "count");
    Query.LookupOfThree(ps[0], ps[1], ps[2], "maxlength");
    ps
  }

  /** The app ID, count and length limit as decimal text. */
  function NumberParams(appId: Numbers.Int32, count: Numbers.Int32, maxLength: Numbers.Int32): (ps: Query.Params)
    ensures Query.KeySet(ps) == {"appid", "count", "maxlength"}
    ensures HoldsNumber(ps, "appid", appId) && HoldsNumber(ps, "count", count) && HoldsNumber(ps, "maxlength", maxLength)
  {
    NumberEntries(Numbers.IntToString(appId), Numbers.IntToString(count), Numbers.IntToString(maxLength))
  }

  /** The dictionary both actions start from: the numeric entries, then
      `feeds` and `tags` when given and not empty. */
  function NewsParams(appId: Numbers.Int32, count: Numbers.Int32, maxLength: Numbers.Int32,
                      feeds: Option<string>, tags: Option<string>): (ps: Query.Params)
    ensures Query.KeySet(ps)
            == {"appid", "count", "maxlength"}
               + (if Query.NonEmpty(feeds).Some? then {"feeds"} else {})
               + (if Query.NonEmpty(tags).Some? then {"tags"} else {})
    ensures HoldsNumber(ps, "appid", appId) && HoldsNumber(ps, "count", count) && HoldsNumber(ps, "maxlength", maxLength)
    ensures Query.Lookup(ps, "feeds") == Query.NonEmpty(feeds)
    ensures Query.Lookup(ps, "tags") == Query.NonEmpty(tags)
  {
    Query.PutBothIfPresent(NumberParams(appId, count, maxLength), "feeds", Query.NonEmpty(feeds), "tags", Query.NonEmpty(tags))
  }

  /** `GET app/{appId}`: the news checks, then `ISteamNews/GetNewsForApp/v0002`
      with the news dictionary. */
  function GetNewsForApp(appId: Numbers.Int32, count: Numbers.Int32, maxLength: Numbers.Int32,
                         feeds: Option<string>, tags: Option<string>): (r: Answer)
    ensures NewsError(appId, count, maxLength).Some? ==> r == BadRequest(NewsError(appId, count, maxLength).value)
    ensures r.Forward? <==> appId > 0 && 1 <= count <= 20 && maxLength >= 0
    ensures r.Forward?
            ==> r.call.Versioned? && r.call.interfaceName == "ISteamNews"
                && r.call.methodName == "GetNewsForApp" && r.call.version == "v0002"
                && r.call.params == NewsParams(appId, count, maxLength, feeds, tags)
  {
    match NewsError(appId, count, maxLength)
    case Some(e) => BadRequest(e)
    case None => Forward(Versioned("ISteamNews", "GetNewsForApp", "v0002", NewsParams(appId, count, maxLength, feeds, tags)))
  }

  /** The authenticated dictionary: the news dictionary, then `enddate`
      and `days` when given. */
  function AuthedParams(appId: Numbers.Int32, count: Numbers.Int32, maxLength: Numbers.Int32,
                        feeds: Option<string>, tags: Option<string>,
                        endDate: Option<Numbers.Int64>, days: Option<Numbers.Int32>): (ps: Query.Params)
    ensures Query.KeySet(ps)
            == Query.KeySet(NewsParams(appId, count, maxLength, feeds, tags))
               + (if endDate.Some? then {"enddate"} else {})
               + (if days.Some? then {"days"} else {})
    ensures forall k :: k != "enddate" && k != "days"
              ==> Query.Lookup(ps, k) == Query.Lookup(NewsParams(appId, count, maxLength, feeds, tags), k)
    ensures endDate.Some? ==> HoldsNumber(ps, "enddate", endDate.value)
    ensures endDate.None? ==> Query.Lookup(ps, "enddate") == None
    ensures days.Some? ==> HoldsNumber(ps, "days", days.value)
    ensures days.None? ==> Query.Lookup(ps, "days") == None
  {
    var endText := if endDate.Some? then Some(Numbers.IntToString(endDate.value)) else None;
    var daysText := if days.Some? then Some(Numbers.IntToString(days.value)) else None;
    var news := NewsParams(appId, count, maxLength, feeds, tags);
    NewsKeys(news, feeds, tags);
    Query.PutBothIfPresent(news, "enddate", endText, "days", daysText)
  }

  /** The news dictionary has room for the authenticated extras. */
  lemma NewsKeys(news: Query.Params, feeds: Option<string>, tags: Option<string>)
    requires Query.KeySet(news)
             == {"appid", "count", "maxlength"}
                + (if Query.NonEmpty(feeds).Some? then {"feeds"} else {})
                + (if Query.NonEmpty(tags).Some? then {"tags"} else {})
    ensures "enddate" !in Query.KeySet(news) && "days" !in Query.KeySet(news)
  {
  }

  /** `GET app/{appId}/authed`: the news checks, then a given day count
      must be 1..365; the call is `GetNewsForAppAuthed/v0001`. */
  function GetNewsForAppAuthed(appId: Numbers.Int32, count: Numbers.Int32, maxLength: Numbers.Int32,
                               feeds: Option<string>, tags: Option<string>,
                               endDate: Option<Numbers.Int64>, days: Option<Numbers.Int32>): (r: Answer)
    ensures NewsError(appId, count, maxLength).Some? ==> r == BadRequest(NewsError(appId, count, maxLength).value)
    ensures NewsError(appId, count, maxLength).None? && days.Some? && !(1 <= days.value <= 365)
            ==> r == BadRequest("Days must be between 1 and 365")
    ensures r.Forward? <==> appId > 0 && 1 <= count <= 20 && maxLength >= 0 && (days.Some? ==> 1 <= days.value <= 365)
    ensures r.Forward?
            ==> r.call.Versioned? && r.call.interfaceName == "ISteamNews"
                && r.call.methodName == "GetNewsForAppAuthed" && r.call.version == "v0001"
                && r.call.params == AuthedParams(appId, count, maxLength, feeds, tags, endDate, days)
  {
    match NewsError(appId, count, maxLength)
    case Some(e) => BadRequest(e)
    case None =>
      if days.Some? && (days.value <= 0 || days.value > 365) then BadRequest("Days must be between 1 and 365")
      else Forward(Versioned("ISteamNews", "GetNewsForAppAuthed", "v0001",
                             AuthedParams(appId, count, maxLength, feeds, tags, endDate, days)))
  }

  /** Without the optional arguments the two actions agree on everything
      but the method and version: the authenticated dictionary is then the
      public one. */
  lemma AuthedWithoutExtrasIsPublic(appId: Numbers.Int32, count: Numbers.Int32, maxLength: Numbers.Int32,
                                    feeds: Option<string>, tags: Option<string>)
    ensures GetNewsForApp(appId, count, maxLength, feeds, tags).Forward?
            <==> GetNewsForAppAuthed(appId, count, maxLength, feeds, tags, None, None).Forward?
    ensures AuthedParams(appId, count, maxLength, feeds, tags, None, None) == NewsParams(appId, count, maxLength, feeds, tags)
  {
  }

  /** What the typed client sends by default (`count=20`, `maxLength=0`)
      passes the gateway's news checks for every positive app ID. */
  lemma ClientDefaultsPass(appId: Numbers.Int32)
    requires appId > 0
    ensures NewsError(appId, ClientUrls.DefaultNewsCount, ClientUrls.DefaultNewsMaxLength).None?
    ensures ClientUrls.DefaultNewsCount == DefaultCount && ClientUrls.DefaultNewsMaxLength == DefaultMaxLength
  {
  }
}

=== FILE: steam_store.dfy ===
/** `SteamStoreController`: store details for one app or for a
    comma-separated list of apps, both through the store's `appdetails`
    endpoint. */
module SteamStore {
  import opened Wrappers
  import Text
  import Numbers
  import Query
  import opened Requests

  /** `GET appdetails/{appId}`: a positive app ID, sent as `appids`. */
  function GetAppDetails(appId: Numbers.Int32): (r: Answer)
    ensures appId <= 0 ==> r == BadRequest("App ID must be a positive integer")
    ensures r.Forward? <==> appId > 0
    ensures r.Forward?
            ==> r.call.StoreCall? && r.call.endpoint == "appdetails"
                && Query.KeySet(r.call.params) == {"appids"} && HoldsNumber(r.call.params, "appids", appId)
  {
    if appId <= 0 then BadRequest("App ID must be a positive integer")
    else
      Query.KeySetOfOne(("appids", Numbers.IntToString(appId)));
      Forward(StoreCall("appdetails", [("appids", Numbers.IntToString(appId))]))
  }

  /** The app IDs a list parameter names. */
  function AppIdEntries(appIds: string): seq<string> {
    Text.SplitRemoveEmpty(appIds, ',')
  }

  /** The list check: a blank parameter is "required"; otherwise every
      entry must be a positive `int` once trimmed, the first that is not
      being named as written. */
  function AppIdsError(appIds: string): (r: Option<string>)
    ensures Text.IsBlank(appIds) ==> r == Some("App IDs parameter is required")
    ensures r.None?
            <==> !Text.IsBlank(appIds)
                 && forall i :: 0 <= i < |AppIdEntries(appIds)| ==> IsPositiveAppIdEntry(AppIdEntries(appIds)[i])
    ensures !Text.IsBlank(appIds) && r.Some?
            ==> exists i :: IsFirstInvalid(AppIdEntries(appIds), IsPositiveAppIdEntry, i)
                            && r.value == "Invalid app ID: " + AppIdEntries(appIds)[i]
  {
    if Text.IsBlank(appIds) then Some("App IDs parameter is required")
    else EntryError(AppIdEntries(appIds), IsPositiveAppIdEntry, "Invalid app ID: ")
  }

  /** `GET appdetails?appIds=`: the list check, then the list forwarded
      exactly as the caller wrote it. */
  function GetAppDetailsMultiple(appIds: string): (r: Answer)
    ensures AppIdsError(appIds).Some? ==> r == BadRequest(AppIdsError(appIds).value)
    ensures r.Forward?
            <==> !Text.IsBlank(appIds)
                 && forall i :: 0 <= i < |AppIdEntries(appIds)| ==> IsPositiveAppIdEntry(AppIdEntries(appIds)[i])
    ensures r.Forward?
            ==> r.call.StoreCall? && r.call.endpoint == "appdetails"
                && Query.KeySet(r.call.params) == {"appids"} && Query.Lookup(r.call.params, "appids") == Some(appIds)
  {
    match AppIdsError(appIds)
    case Some(e) => BadRequest(e)
    case None =>
      Query.KeySetOfOne(("appids", appIds));
      Forward(StoreCall("appdetails", [("appids", appIds)]))
  }

  /** `appId.ToString()` is a list of one entry, which passes the entry
      check exactly when the app ID is positive. */
  lemma SingleIdEntry(appId: Numbers.Int32)
    ensures var t := Numbers.IntToString(appId);
      !Text.IsBlank(t) && AppIdEntries(t) == [t] && (IsPositiveAppIdEntry(t) <==> appId > 0)
  {
    var t := Numbers.IntToString(appId);
    NumberText(appId);
    Text.SplitWithoutSeparator(t, ',');
    Numbers.ParseFormatted(appId);
  }

  /** The list action given one positive app ID asks the store for exactly
      what the single action asks for. */
  lemma SingleIdAgrees(appId: Numbers.Int32)
    requires appId > 0
    ensures GetAppDetailsMultiple(Numbers.IntToString(appId)) == GetAppDetails(appId)
  {
    SingleIdEntry(appId);
  }

  /** ... and refuses a single non-positive one, as the single action does,
      but with its own message. */
  lemma SingleNonPositiveRefused(appId: Numbers.Int32)
    requires appId <= 0
    ensures GetAppDetailsMultiple(Numbers.IntToString(appId)) == BadRequest("Invalid app ID: " + Numbers.IntToString(appId))
    ensures GetAppDetails(appId) == BadRequest("App ID must be a positive integer")
  {
    SingleIdEntry(appId);
    assert IsFirstInvalid(AppIdEntries(Numbers.IntToString(appId)), IsPositiveAppIdEntry, 0);
  }

  /** A list of positive app IDs written with commas is forwarded as
      written. */
  lemma JoinedPositiveIdsPass(xs: seq<string>)
    requires |xs| >= 1
    requires forall i :: 0 <= i < |xs| ==> xs[i] != "" && ',' !in xs[i] && IsPositiveAppIdEntry(xs[i])
    requires !Text.IsWhiteSpace(xs[0][0])
    ensures GetAppDetailsMultiple(Text.Join(xs, ",")).Forward?
  {
    var s := Text.Join(xs, ",");
    assert AppIdEntries(s) == xs by {
      Text.SplitRemoveEmptyJoin(xs, ',');
    }
    assert !Text.IsBlank(s) by {
      JoinStartsWithFirst(xs, ",");
      assert s[0] == xs[0][0];
    }
    assert AppIdsError(s).None?;
  }

  /** The list check looks only at the entries: a parameter of commas alone
      has none to refuse and is forwarded. */
  lemma CommasAloneForwarded(appIds: string)
    requires appIds != "" && forall i :: 0 <= i < |appIds| ==> appIds[i] == ','
    ensures GetAppDetailsMultiple(appIds).Forward?
  {
    Text.OnlySeparatorsSplitToNothing(appIds, ',');
    assert !Text.IsWhiteSpace(appIds[0]);
  }
}

=== FILE: steam_urls.dfy ===
/** The two upstream URL shapes `SteamApiService` builds: the versioned Web
    API URL `<base>/<interface>/<method>/<version>/?key=…&format=json&…` and
    the flat Store API URL `<storeBase>/<endpoint>[?…]`. */
module SteamUrls {
  import opened Wrappers
  import Text
  import PE = PercentEncoding
  import Query

  /** The parts of `SteamApiOptions` the URL builders read. */
  datatype ServiceOptions = ServiceOptions(apiKey: string, baseUrl: string, storeBaseUrl: string)

  /** The option defaults: an empty key and the public Steam hosts. */
  const DefaultOptions := ServiceOptions("", "https://api.steampowered.com", "https://store.steampowered.com/api")

  /** `<base without trailing slashes>/<interface>/<method>/<version>/`; the
      segments are inserted as given, without escaping. */
  function VersionedPath(o: ServiceOptions, interfaceName: string, methodName: string, version: string): string {
    Text.TrimEnd(o.baseUrl, '/') + "/" + interfaceName + "/" + methodName + "/" + version + "/"
  }

  /** The format flag every versioned call sends. */
  const FormatJson: (string, string) := ("format", "json")

  /** The parameters every versioned call starts with. */
  function FixedParams(o: ServiceOptions): Query.Params {
    [("key", o.apiKey), FormatJson]
  }

  /** The format flag renders as `format=json`. */
  lemma FormatJsonRendering()
    ensures Query.RenderPair(FormatJson) == "format=json"
  {
    Query.RenderPlainPair(FormatJson);
    FormatJsonText();
  }

  /** The unescaped text of the format flag. */
  lemma FormatJsonText()
    ensures FormatJson.0 + "=" + FormatJson.1 == "format=json"
  {
  }

  /** `BuildSteamApiUrl`: the versioned path, always followed by `?`, then a
      query that reads back as the key, the JSON format flag and the caller's
      parameters in enumeration order. */
  function BuildSteamApiUrl(o: ServiceOptions, interfaceName: string, methodName: string, version: string,
                            parameters: Option<Query.Params>): (url: string)
    ensures var p := VersionedPath(o, interfaceName, methodName, version);
      |url| > |p| && url[..|p| + 1] == p + "?"
      && Query.Parse(url[|p| + 1..]) == Some(FixedParams(o) + parameters.GetOr([]))
      && url == p + "?" + Query.Render(FixedParams(o) + parameters.GetOr([]))
  {
    var path := VersionedPath(o, interfaceName, methodName, version);
    var ps := parameters.GetOr([]);
    var url := path + "?" + VersionedQuery(o, ps);
    VersionedQueryRenders(o, ps);
    Query.ParseRender(FixedParams(o) + ps);
    assert url[|path| + 1..] == VersionedQuery(o, ps);
    url
  }

  /** `string.Join("&", queryParams)` for the list `key=…`, `format=json`,
      then one escaped pair per caller parameter. */
  function VersionedQuery(o: ServiceOptions, ps: Query.Params): string {
    Text.Join(["key=" + PE.Escape(o.apiKey), "format=json"] + Query.RenderPairs(ps), "&")
  }

  /** The query list of the source (`key=…`, `format=json`, then the
      caller's pairs) is the rendering of the fixed parameters followed by
      the caller's. */
  lemma VersionedQueryRenders(o: ServiceOptions, ps: Query.Params)
    ensures VersionedQuery(o, ps) == Query.Render(FixedParams(o) + ps)
  {
    FixedRendering(o.apiKey);
    Query.RenderPairsAppend(FixedParams(o), ps);
  }

  /** The fixed parameters render as the two literal pieces of the source. */
  lemma FixedRendering(apiKey: string)
    ensures Query.RenderPairs([("key", apiKey), FormatJson]) == ["key=" + PE.Escape(apiKey), "format=json"]
  {
    Query.RenderPairsOfTwo(("key", apiKey), FormatJson);
    KeyRendering(apiKey);
    FormatJsonRendering();
  }

  /** The key name needs no escaping; only the key value is escaped. */
  lemma KeyRendering(k: string)
    ensures Query.RenderPair(("key", k)) == "key=" + PE.Escape(k)
  {
    Query.RenderPlainKey("key", k);
  }

  /** `<store base without trailing slashes>/<endpoint>`. */
  function StorePath(o: ServiceOptions, endpoint: string): string {
    Text.TrimEnd(o.storeBaseUrl, '/') + "/" + endpoint
  }

  /** `BuildStoreApiUrl`: the store path alone when there are no parameters,
      otherwise `?` and a query that reads back as exactly the caller's
      parameters (no key, no format flag). */
  function BuildStoreApiUrl(o: ServiceOptions, endpoint: string, parameters: Option<Query.Params>): (url: string)
    ensures var p := StorePath(o, endpoint);
      && (parameters.GetOr([]) == [] ==> url == p)
      && (parameters.GetOr([]) != [] ==>
            |url| > |p| && url[..|p| + 1] == p + "?"
            && Query.Parse(url[|p| + 1..]) == Some(parameters.GetOr([]))
            && url == p + "?" + Query.Render(parameters.GetOr([])))
  {
    Query.AppendQuery(StorePath(o, endpoint), parameters.GetOr([]))
  }

  // ---------------------------------------------------------------------
  // Properties of the shapes.

  /** The trimmed base never ends in `/`, so the path has exactly one slash
      between the base and the interface. */
  lemma TrimmedBaseHasNoTrailingSlash(o: ServiceOptions)
    ensures var b := Text.TrimEnd(o.baseUrl, '/'); b == [] || b[|b| - 1] != '/'
    ensures var b := Text.TrimEnd(o.storeBaseUrl, '/'); b == [] || b[|b| - 1] != '/'
  {
  }

  /** Any number of trailing slashes on the base gives the same URL. */
  lemma {:induction false} TrailingSlashesIgnored(base: string, n: nat)
    ensures Text.TrimEnd(base + seq(n, _ => '/'), '/') == Text.TrimEnd(base, '/')
    decreases n
  {
    if n > 0 {
      var s := base + seq(n, _ => '/');
      assert s[..|s| - 1] == base + seq(n - 1, _ => '/');
      TrailingSlashesIgnored(base, n - 1);
    } else {
      assert base + seq(0, _ => '/') == base;
    }
  }

  /** The versioned query never reads back without the key and the format
      flag in front, whatever the caller passes. */
  lemma KeyAndFormatComeFirst(o: ServiceOptions, interfaceName: string, methodName: string, version: string,
                              parameters: Option<Query.Params>)
    ensures var p := VersionedPath(o, interfaceName, methodName, version);
      var q := Query.Parse(BuildSteamApiUrl(o, interfaceName, methodName, version, parameters)[|p| + 1..]);
      q.Some? && |q.value| >= 2 && q.value[0] == ("key", o.apiKey) && q.value[1] == FormatJson
  {
  }

  /** With unreserved text everywhere nothing is escaped: a one-parameter
      call such as `GetFriendList` with `relationship=all` reads
      `<path>?key=<key>&format=json&relationship=all`. */
  lemma UnreservedUrl(o: ServiceOptions, interfaceName: string, methodName: string, version: string,
                      k: string, v: string)
    requires AllUnreserved(o.apiKey) && AllUnreserved(k) && AllUnreserved(v)
    ensures BuildSteamApiUrl(o, interfaceName, methodName, version, Some([(k, v)]))
         == VersionedPath(o, interfaceName, methodName, version) + "?" + (("key=" + o.apiKey) + "&" + ("format=json" + "&" + (k + "=" + v)))
  {
    UnreservedQuery(o, k, v);
  }

  /** The query of a one-parameter call when nothing needs escaping. */
  lemma UnreservedQuery(o: ServiceOptions, k: string, v: string)
    requires AllUnreserved(o.apiKey) && AllUnreserved(k) && AllUnreserved(v)
    ensures VersionedQuery(o, [(k, v)]) == ("key=" + o.apiKey) + "&" + ("format=json" + "&" + (k + "=" + v))
  {
    var key, kv := "key=" + o.apiKey, k + "=" + v;
    assert Query.RenderPairs([(k, v)]) == [kv] by {
      Query.RenderPlainPair((k, v));
    }
    assert ["key=" + PE.Escape(o.apiKey), "format=json"] + Query.RenderPairs([(k, v)]) == [key, "format=json", kv];
    Text.JoinOfThree(key, "format=json", kv, "&");
  }

  predicate AllUnreserved(s: string) {
    forall i :: 0 <= i < |s| ==> PE.IsUnreserved(s[i])
  }
}

=== FILE: steam_user.dfy ===
/** `SteamUserController`: player summaries, friend list, bans, group list
    and vanity URL resolution. */
module SteamUser {
  import opened Wrappers
  import Text
  import Numbers
  import Query
  import opened Requests

  /** The Steam IDs a list parameter names, as the list checks see them. */
  function SteamIdEntries(steamIds: string): seq<string> {
    Text.SplitRemoveEmpty(steamIds, ',')
  }

  /** `GET summaries?steamIds=`: the list passes the capped list check and
      is then forwarded exactly as the caller wrote it, untrimmed. */
  function GetPlayerSummaries(steamIds: string): (r: Answer)
    ensures SteamIdListError(steamIds, true).Some? ==> r == BadRequest(SteamIdListError(steamIds, true).value)
    ensures r.Forward? <==> steamIds != "" && 0 < |SteamIdEntries(steamIds)| <= MaxSteamIds
                            && forall i :: 0 <= i < |SteamIdEntries(steamIds)| ==> IsSteamIdEntry(SteamIdEntries(steamIds)[i])
    ensures r.Forward?
            ==> r.call.Versioned? && r.call.interfaceName == "ISteamUser"
                && r.call.methodName == "GetPlayerSummaries" && r.call.version == "v0002"
                && Query.KeySet(r.call.params) == {"steamids"} && Query.Lookup(r.call.params, "steamids") == Some(steamIds)
  {
    match SteamIdListError(steamIds, true)
    case Some(e) => BadRequest(e)
    case None =>
      Query.KeySetOfOne(("steamids", steamIds));
      Forward(Versioned("ISteamUser", "GetPlayerSummaries", "v0002", [("steamids", steamIds)]))
  }

  /** `GET bans?steamIds=`: the same list check without the cap. */
  function GetPlayerBans(steamIds: string): (r: Answer)
    ensures SteamIdListError(steamIds, false).Some? ==> r == BadRequest(SteamIdListError(steamIds, false).value)
    ensures r.Forward? <==> steamIds != "" && 0 < |SteamIdEntries(steamIds)|
                            && forall i :: 0 <= i < |SteamIdEntries(steamIds)| ==> IsSteamIdEntry(SteamIdEntries(steamIds)[i])
    ensures r.Forward?
            ==> r.call.Versioned? && r.call.interfaceName == "ISteamUser"
                && r.call.methodName == "GetPlayerBans" && r.call.version == "v1"
                && Query.KeySet(r.call.params) == {"steamids"} && Query.Lookup(r.call.params, "steamids") == Some(steamIds)
  {
    match SteamIdListError(steamIds, false)
    case Some(e) => BadRequest(e)
    case None =>
      Query.KeySetOfOne(("steamids", steamIds));
      Forward(Versioned("ISteamUser", "GetPlayerBans", "v1", [("steamids", steamIds)]))
  }

  /** Summaries accept at most 100 IDs where bans take any number: a list
      of 101 well-formed IDs is refused by one and forwarded by the other. */
  lemma SummariesCapBansDoNot(xs: seq<string>)
    requires |xs| == MaxSteamIds + 1
    requires forall i :: 0 <= i < |xs| ==> xs[i] != "" && ',' !in xs[i] && IsSteamIdEntry(xs[i])
    ensures GetPlayerSummaries(Text.Join(xs, ",")) == BadRequest("Maximum of 100 Steam IDs allowed per request")
    ensures GetPlayerBans(Text.Join(xs, ",")).Forward?
  {
    JoinedSteamIdsPass(xs, true);
    JoinedSteamIdsPass(xs, false);
    Text.SplitRemoveEmptyJoin(xs, ',');
  }

  /** The default relationship filter, used when the query has no
      `relationship` at all. */
  const DefaultRelationship := "all"

  /** What the controller answers when building the friend-list call
      throws. */
  const FriendListFailure := "Failed to retrieve friend list from Steam API"

  /** `GET friends/{steamId}?relationship=`: the Steam ID check, then the
      relationship must be null, empty, `all` or `friend`. A given
      relationship is forwarded as it is. A null one (an empty
      `?relationship=` binds to null) passes the check but makes
      `Uri.EscapeDataString` throw while the URL is built, so the answer is
      the controller's 500. */
  function GetFriendList(steamId: string, relationship: Option<string>): (r: Answer)
    ensures SteamIdError(steamId).Some? ==> r == BadRequest(SteamIdError(steamId).value)
    ensures SteamIdError(steamId).None? && Query.NonEmpty(relationship).Some?
            && relationship.value != "all" && relationship.value != "friend"
            ==> r == BadRequest("Relationship must be 'all' or 'friend'")
    ensures SteamIdError(steamId).None? && relationship.None? ==> r == ServerError(FriendListFailure)
    ensures r.Forward? <==> Numbers.IsUInt64(steamId) && relationship.Some?
                            && (relationship.value == "" || relationship.value == "all" || relationship.value == "friend")
    ensures r.Forward?
            ==> r.call.Versioned? && r.call.interfaceName == "ISteamUser"
                && r.call.methodName == "GetFriendList" && r.call.version == "v0001"
                && Query.KeySet(r.call.params) == {"steamid", "relationship"}
                && Query.Lookup(r.call.params, "steamid") == Some(steamId)
                && Query.Lookup(r.call.params, "relationship") == relationship
  {
    match SteamIdError(steamId)
    case Some(e) => BadRequest(e)
    case None =>
      if Query.NonEmpty(relationship).Some? && relationship.value != "all" && relationship.value != "friend" then
        BadRequest("Relationship must be 'all' or 'friend'")
      else if relationship.None? then
        ServerError(FriendListFailure)
      else
        var ps := [("steamid", steamId), ("relationship", relationship.value)];
        Query.KeySetOfTwo(ps[0], ps[1]);
        Forward(Versioned("ISteamUser", "GetFriendList", "v0001", ps))
  }

  /** `GET groups/{steamId}`. */
  function GetUserGroupList(steamId: string): (r: Answer)
    ensures SteamIdError(steamId).Some? ==> r == BadRequest(SteamIdError(steamId).value)
    ensures r.Forward? <==> Numbers.IsUInt64(steamId)
    ensures r.Forward?
            ==> r.call.Versioned? && r.call.interfaceName == "ISteamUser"
                && r.call.methodName == "GetUserGroupList" && r.call.version == "v1"
                && Query.KeySet(r.call.params) == {"steamid"} && Query.Lookup(r.call.params, "steamid") == Some(steamId)
  {
    match SteamIdError(steamId)
    case Some(e) => BadRequest(e)
    case None =>
      Query.KeySetOfOne(("steamid", steamId));
      Forward(Versioned("ISteamUser", "GetUserGroupList", "v1", [("steamid", steamId)]))
  }

  /** The default URL type: an individual profile. */
  const DefaultUrlType: Numbers.Int32 := 1

  /** `GET resolve/{vanityUrl}?urlType=`: a non-empty name and a type of 1
      (profile) or 2 (group); the name is forwarded as given and the type
      as its decimal text (`HoldsNumber`). */
  function ResolveVanityUrl(vanityUrl: string, urlType: Numbers.Int32): (r: Answer)
    ensures vanityUrl == "" ==> r == BadRequest("Vanity URL is required")
    ensures vanityUrl != "" && urlType != 1 && urlType != 2
            ==> r == BadRequest("URL type must be 1 (individual profile) or 2 (group)")
    ensures r.Forward? <==> vanityUrl != "" && (urlType == 1 || urlType == 2)
    ensures r.Forward?
            ==> r.call.Versioned? && r.call.interfaceName == "ISteamUser"
                && r.call.methodName == "ResolveVanityURL" && r.call.version == "v0001"
                && Query.KeySet(r.call.params) == {"vanityurl", "url_type"}
                && Query.Lookup(r.call.params, "vanityurl") == Some(vanityUrl)
                && HoldsNumber(r.call.params, "url_type", urlType)
  {
    if vanityUrl == "" then BadRequest("Vanity URL is required")
    else if urlType != 1 && urlType != 2 then BadRequest("URL type must be 1 (individual profile) or 2 (group)")
    else
      var ps := [("vanityurl", vanityUrl), ("url_type", Numbers.IntToString(urlType))];
      Query.KeySetOfTwo(ps[0], ps[1]);
      Forward(Versioned("ISteamUser", "ResolveVanityURL", "v0001", ps))
  }

  /** With the defaults, a valid Steam ID lists all friends and a non-empty
      name is resolved as a profile (`url_type=1`). */
  lemma Defaults(steamId: string, vanityUrl: string)
    requires Numbers.IsUInt64(steamId) && vanityUrl != ""
    ensures Query.Lookup(GetFriendList(steamId, Some(DefaultRelationship)).call.params, "relationship") == Some("all")
    ensures Query.Lookup(ResolveVanityUrl(vanityUrl, DefaultUrlType).call.params, "url_type") == Some("1")
  {
    assert Numbers.IntToString(1) == "1";
  }
}

=== FILE: steam_user_stats.dfy ===
/** `SteamUserStatsController`: achievement percentages, current players,
    a player's achievements and a player's statistics. Unlike the other
    controllers, this one only asks that the Steam ID be non-empty. */
module SteamUserStats {
  import opened Wrappers
  import Numbers
  import Query
  import Player
  import opened Requests

  /** `GET achievements/{gameId}/global`: a positive game ID, sent as
      `gameid`. */
  function GetGlobalAchievementPercentagesForApp(gameId: Numbers.Int32): (r: Answer)
    ensures gameId <= 0 ==> r == BadRequest("Game ID must be a positive integer")
    ensures r.Forward? <==> gameId > 0
    ensures r.Forward?
            ==> r.call.Versioned? && r.call.interfaceName == "ISteamUserStats"
                && r.call.methodName == "GetGlobalAchievementPercentagesForApp" && r.call.version == "v0002"
                && Query.KeySet(r.call.params) == {"gameid"} && HoldsNumber(r.call.params, "gameid", gameId)
  {
    if gameId <= 0 then BadRequest("Game ID must be a positive integer")
    else
      Query.KeySetOfOne(("gameid", Numbers.IntToString(gameId)));
      Forward(Versioned("ISteamUserStats", "GetGlobalAchievementPercentagesForApp", "v0002",
                        [("gameid", Numbers.IntToString(gameId))]))
  }

  /** `GET players/{appId}/current`: a positive app ID, sent as `appid`. */
  function GetNumberOfCurrentPlayers(appId: Numbers.Int32): (r: Answer)
    ensures appId <= 0 ==> r == BadRequest("App ID must be a positive integer")
    ensures r.Forward? <==> appId > 0
    ensures r.Forward?
            ==> r.call.Versioned? && r.call.interfaceName == "ISteamUserStats"
                && r.call.methodName == "GetNumberOfCurrentPlayers" && r.call.version == "v0001"
                && Query.KeySet(r.call.params) == {"appid"} && HoldsNumber(r.call.params, "appid", appId)
  {
    if appId <= 0 then BadRequest("App ID must be a positive integer")
    else
      Query.KeySetOfOne(("appid", Numbers.IntToString(appId)));
      Forward(Versioned("ISteamUserStats", "GetNumberOfCurrentPlayers", "v0001",
                        [("appid", Numbers.IntToString(appId))]))
  }

  /** The checks of the per-player actions, in order: a non-empty Steam ID
      (any text at all), then a positive app ID. */
  function PlayerGameError(steamId: string, appId: Numbers.Int32): (r: Option<string>)
    ensures steamId == "" ==> r == Some("Steam ID is required")
    ensures steamId != "" && appId <= 0 ==> r == Some("App ID must be a positive integer")
    ensures r.None? <==> steamId != "" && appId > 0
  {
    if steamId == "" then Some("Steam ID is required")
    else if appId <= 0 then Some("App ID must be a positive integer")
    else None
  }

  /** The Steam ID as given and the app ID as decimal text. */
  function PlayerGameParams(steamId: string, appId: Numbers.Int32): (ps: Query.Params)
    ensures Query.KeySet(ps) == {"steamid", "appid"}
    ensures Query.Lookup(ps, "steamid") == Some(steamId) && HoldsNumber(ps, "appid", appId)
    ensures Query.Lookup(ps, "l") == None
  {
    var ps := [("steamid", steamId), ("appid", Numbers.IntToString(appId))];
    Query.KeySetOfTwo(ps[0], ps[1]);
    ps
  }

  /** `GET achievements/{steamId}/{appId}?language=`: the per-player checks,
      then `GetPlayerAchievements/v0001`, with `l` added when a non-empty
      language is given. */
  function GetPlayerAchievements(steamId: string, appId: Numbers.Int32, language: Option<string>): (r: Answer)
    ensures PlayerGameError(steamId, appId).Some? ==> r == BadRequest(PlayerGameError(steamId, appId).value)
    ensures r.Forward? <==> steamId != "" && appId > 0
    ensures r.Forward?
            ==> r.call.Versioned? && r.call.interfaceName == "ISteamUserStats"
                && r.call.methodName == "GetPlayerAchievements" && r.call.version == "v0001"
                && Query.KeySet(r.call.params)
                   == {"steamid", "appid"} + (if Query.NonEmpty(language).Some? then {"l"} else {})
                && Query.Lookup(r.call.params, "steamid") == Some(steamId)
                && HoldsNumber(r.call.params, "appid", appId)
                && Query.Lookup(r.call.params, "l") == Query.NonEmpty(language)
  {
    match PlayerGameError(steamId, appId)
    case Some(e) => BadRequest(e)
    case None =>
      Forward(Versioned("ISteamUserStats", "GetPlayerAchievements", "v0001",
                        Query.PutIfPresent(PlayerGameParams(steamId, appId), "l", Query.NonEmpty(language))))
  }

  /** `GET stats/{steamId}/{appId}`: the per-player checks, then
      `GetUserStatsForGame/v0002` with the Steam ID and app ID. */
  function GetUserStatsForGame(steamId: string, appId: Numbers.Int32): (r: Answer)
    ensures PlayerGameError(steamId, appId).Some? ==> r == BadRequest(PlayerGameError(steamId, appId).value)
    ensures r.Forward? <==> steamId != "" && appId > 0
    ensures r.Forward?
            ==> r.call.Versioned? && r.call.interfaceName == "ISteamUserStats"
                && r.call.methodName == "GetUserStatsForGame" && r.call.version == "v0002"
                && Query.KeySet(r.call.params) == {"steamid", "appid"}
                && Query.Lookup(r.call.params, "steamid") == Some(steamId)
                && HoldsNumber(r.call.params, "appid", appId)
  {
    match PlayerGameError(steamId, appId)
    case Some(e) => BadRequest(e)
    case None => Forward(Versioned("ISteamUserStats", "GetUserStatsForGame", "v0002", PlayerGameParams(steamId, appId)))
  }

  /** A Steam ID that is not a number at all reaches Steam through these
      actions, where the player actions refuse it. */
  lemma AnySteamIdTextPasses(steamId: string, appId: Numbers.Int32)
    requires steamId != "" && !Numbers.IsUInt64(steamId) && appId > 0
    ensures GetUserStatsForGame(steamId, appId).Forward?
    ensures GetPlayerAchievements(steamId, appId, None).Forward?
    ensures Player.GetSteamLevel(steamId) == BadRequest("Invalid Steam ID format")
  {
  }

  /** An empty language is not sent: it asks for the same call as no
      language, which is the statistics dictionary under another method. */
  lemma EmptyLanguageIsAbsent(steamId: string, appId: Numbers.Int32)
    ensures GetPlayerAchievements(steamId, appId, Some("")) == GetPlayerAchievements(steamId, appId, None)
    ensures GetPlayerAchievements(steamId, appId, None).Forward?
            ==> GetPlayerAchievements(steamId, appId, None).call.params == GetUserStatsForGame(steamId, appId).call.params
  {
  }
}

=== FILE: store_converters.dfy ===
/** The two tolerant converters of the store models: `StoreRequirements`
    accepts `null`, an (empty) array or an object, and `required_age`
    accepts a string or a number. */
module StoreConverters {
  import opened Wrappers
  import Text
  import Numbers
  import opened Json

  /** `StoreRequirements`: HTML text of the minimum and recommended
      requirements, each possibly absent. */
  datatype StoreRequirements = StoreRequirements(minimum: Option<string>, recommended: Option<string>)

  const MinimumName := "minimum"
  const RecommendedName := "recommended"

  /** A `string?` property read from a member value: a string, or `null`;
      any other value is a `JsonException`. */
  function StringProperty(v: Json): (r: Result<Option<string>, string>)
    ensures r.Ok? <==> v.JString? || v.JNull?
    ensures v.JString? ==> r == Ok(Some(v.s))
    ensures v.JNull? ==> r == Ok(None)
  {
    match v
    case JString(s) => Ok(Some(s))
    case JNull => Ok(None)
    case _ => Err("JsonException")
  }

  /** Whether a member name selects a property, exactly or, when the
      serializer options ask for it, ignoring ASCII case. */
  predicate NameMatches(name: string, property: string, caseInsensitive: bool) {
    if caseInsensitive then Text.Lower(name) == Text.Lower(property) else name == property
  }

  /** Reads the members of an object in order into `acc`: a member naming a
      property sets it, so the last such member wins, members with other
      names are skipped, and a value of the wrong kind stops the read. */
  function ReadMembers(fields: seq<(string, Json)>, caseInsensitive: bool, acc: StoreRequirements)
    : Result<StoreRequirements, string>
    decreases |fields|
  {
    if fields == [] then Ok(acc)
    else
      var name := fields[0].0;
      var value := fields[0].1;
      if NameMatches(name, MinimumName, caseInsensitive) then
        match StringProperty(value)
        case Err(e) => Err(e)
        case Ok(m) => ReadMembers(fields[1..], caseInsensitive, acc.(minimum := m))
      else if NameMatches(name, RecommendedName, caseInsensitive) then
        match StringProperty(value)
        case Err(e) => Err(e)
        case Ok(m) => ReadMembers(fields[1..], caseInsensitive, acc.(recommended := m))
      else ReadMembers(fields[1..], caseInsensitive, acc)
  }

  /** `StoreRequirementsConverter.Read`: `null`, any array and any scalar
      other than an object give an absent value; an object gives the
      requirements its members name. */
  function ReadRequirements(v: Json, caseInsensitive: bool): (r: Result<Option<StoreRequirements>, string>)
    ensures !v.JObject? ==> r == Ok(None)
    ensures v.JObject? && r.Ok? ==> r.value.Some?
  {
    match v
    case JNull => Ok(None)
    case JArray(_) => Ok(None)
    case JObject(fields) =>
      (match ReadMembers(fields, caseInsensitive, StoreRequirements(None, None))
       case Ok(req) => Ok(Some(req))
       case Err(e) => Err(e))
    case _ => Ok(None)
  }

  function StringValue(s: Option<string>): Json {
    match s
    case Some(t) => JString(t)
    case None => JNull
  }

  /** `StoreRequirementsConverter.Write`: `null` for an absent value,
      otherwise an object with both properties, nulls included. */
  function WriteRequirements(x: Option<StoreRequirements>): (v: Json)
    ensures x.None? <==> v.JNull?
  {
    match x
    case None => JNull
    case Some(req) => JObject([(MinimumName, StringValue(req.minimum)), (RecommendedName, StringValue(req.recommended))])
  }

  // ---------------------------------------------------------------------
  // The object read, member by member.

  /** The value of the last member selecting `property`, if any. */
  function LastMember(fields: seq<(string, Json)>, property: string, caseInsensitive: bool): Option<Json>
    decreases |fields|
  {
    if fields == [] then None
    else
      var later := LastMember(fields[1..], property, caseInsensitive);
      if later.Some? then later
      else if NameMatches(fields[0].0, property, caseInsensitive) then Some(fields[0].1)
      else None
  }

  /** Every member selecting one of the two properties holds a string or
      `null`. */
  predicate WellTyped(fields: seq<(string, Json)>, caseInsensitive: bool) {
    forall i :: 0 <= i < |fields| ==>
      (NameMatches(fields[i].0, MinimumName, caseInsensitive) || NameMatches(fields[i].0, RecommendedName, caseInsensitive))
      ==> (fields[i].1.JString? || fields[i].1.JNull?)
  }

  /** The property value the last selecting member gives, or `prior` when
      no member selects the property. */
  function Resolved(fields: seq<(string, Json)>, property: string, caseInsensitive: bool, prior: Option<string>)
    : Option<string>
  {
    match LastMember(fields, property, caseInsensitive)
    case None => prior
    case Some(v) =>
      (match StringProperty(v)
       case Ok(m) => m
       case Err(_) => None)
  }

  /** The read succeeds exactly on well-typed members, and then each
      property holds the value of the last member naming it. */
  lemma {:induction false} ReadMembersSpec(fields: seq<(string, Json)>, caseInsensitive: bool, acc: StoreRequirements)
    ensures ReadMembers(fields, caseInsensitive, acc).Ok? <==> WellTyped(fields, caseInsensitive)
    ensures WellTyped(fields, caseInsensitive) ==> ReadMembers(fields, caseInsensitive, acc) == Ok(StoreRequirements(
              Resolved(fields, MinimumName, caseInsensitive, acc.minimum),
              Resolved(fields, RecommendedName, caseInsensitive, acc.recommended)))
    decreases |fields|
  {
    if fields != [] {
      var name := fields[0].0;
      var value := fields[0].1;
      var rest := fields[1..];
      assert WellTyped(fields, caseInsensitive) <==>
             ((NameMatches(name, MinimumName, caseInsensitive) || NameMatches(name, RecommendedName, caseInsensitive))
               ==> (value.JString? || value.JNull?)) && WellTyped(rest, caseInsensitive) by {
        if WellTyped(fields, caseInsensitive) {
          forall i | 0 <= i < |rest|
            ensures (NameMatches(rest[i].0, MinimumName, caseInsensitive) || NameMatches(rest[i].0, RecommendedName, caseInsensitive))
                    ==> (rest[i].1.JString? || rest[i].1.JNull?)
          {
            assert rest[i] == fields[i + 1];
          }
        }
        if ((NameMatches(name, MinimumName, caseInsensitive) || NameMatches(name, RecommendedName, caseInsensitive))
               ==> (value.JString? || value.JNull?)) && WellTyped(rest, caseInsensitive) {
          forall i | 0 <= i < |fields|
            ensures (NameMatches(fields[i].0, MinimumName, caseInsensitive) || NameMatches(fields[i].0, RecommendedName, caseInsensitive))
                    ==> (fields[i].1.JString? || fields[i].1.JNull?)
          {
            if i > 0 {
              assert fields[i] == rest[i - 1];
            }
          }
        }
      }
      if NameMatches(name, MinimumName, caseInsensitive) {
        if StringProperty(value).Ok? {
          ReadMembersSpec(rest, caseInsensitive, acc.(minimum := StringProperty(value).value));
        }
      } else if NameMatches(name, RecommendedName, caseInsensitive) {
        if StringProperty(value).Ok? {
          ReadMembersSpec(rest, caseInsensitive, acc.(recommended := StringProperty(value).value));
          assert LastMember(fields, MinimumName, caseInsensitive) == LastMember(rest, MinimumName, caseInsensitive);
        }
      } else {
        ReadMembersSpec(rest, caseInsensitive, acc);
      }
    }
  }

  /** An object read gives exactly what its last `minimum` and
      `recommended` members say, and fails only on a member of the wrong
      kind. */
  lemma ReadObject(fields: seq<(string, Json)>, caseInsensitive: bool)
    ensures ReadRequirements(JObject(fields), caseInsensitive).Ok? <==> WellTyped(fields, caseInsensitive)
    ensures WellTyped(fields, caseInsensitive)
            ==> ReadRequirements(JObject(fields), caseInsensitive)
                == Ok(Some(StoreRequirements(Resolved(fields, MinimumName, caseInsensitive, None),
                                             Resolved(fields, RecommendedName, caseInsensitive, None))))
  {
    ReadMembersSpec(fields, caseInsensitive, StoreRequirements(None, None));
  }

  /** `{"minimum":"foo"}` gives minimum `foo` and no recommended text. */
  lemma ReadMinimumOnly(caseInsensitive: bool)
    ensures ReadRequirements(JObject([("minimum", JString("foo"))]), caseInsensitive)
         == Ok(Some(StoreRequirements(Some("foo"), None)))
  {
    assert !NameMatches("minimum", RecommendedName, caseInsensitive) by {
      assert "minimum"[0] == 'm' && "recommended"[0] == 'r';
      if caseInsensitive {
        assert Text.Lower("minimum")[0] != Text.Lower("recommended")[0];
      }
    }
  }

  /** Writing and reading back gives the same requirements, absent or not. */
  lemma ReadWriteRequirements(x: Option<StoreRequirements>, caseInsensitive: bool)
    ensures ReadRequirements(WriteRequirements(x), caseInsensitive) == Ok(x)
  {
    if x.Some? {
      NamesDiffer(caseInsensitive);
      var req := x.value;
      var fields := [(MinimumName, StringValue(req.minimum)), (RecommendedName, StringValue(req.recommended))];
      var acc0 := StoreRequirements(None, None);
      var acc1 := acc0.(minimum := req.minimum);
      assert StringProperty(StringValue(req.minimum)) == Ok(req.minimum);
      assert StringProperty(StringValue(req.recommended)) == Ok(req.recommended);
      assert fields[1..] == [(RecommendedName, StringValue(req.recommended))];
      assert fields[1..][1..] == [];
      assert ReadMembers(fields, caseInsensitive, acc0) == ReadMembers(fields[1..], caseInsensitive, acc1);
      assert ReadMembers(fields[1..], caseInsensitive, acc1) == Ok(acc1.(recommended := req.recommended));
    }
  }

  /** Each property name selects itself and not the other, with or without
      case-insensitive matching. */
  lemma NamesDiffer(caseInsensitive: bool)
    ensures NameMatches(MinimumName, MinimumName, caseInsensitive)
    ensures NameMatches(RecommendedName, RecommendedName, caseInsensitive)
    ensures !NameMatches(MinimumName, RecommendedName, caseInsensitive)
    ensures !NameMatches(RecommendedName, MinimumName, caseInsensitive)
  {
    assert Text.Lower(MinimumName)[0] == 'm';
    assert Text.Lower(RecommendedName)[0] == 'r';
  }

  // ---------------------------------------------------------------------
  // `required_age`.

  /** `RequiredAgeConverter.Read`: a string through `int.TryParse`, 0 when
      it does not parse; a number through `GetInt32`, which fails on
      fractions, exponents and values beyond 32 bits; 0 for anything else. */
  function ReadRequiredAge(v: Json): (r: Result<Numbers.Int32, string>)
    ensures v.JString? ==> r == Ok(Numbers.TryParseInt32(v.s).GetOr(0))
    ensures v.JNumber? ==> r == GetInt32(v.literal)
    ensures !v.JString? && !v.JNumber? ==> r == Ok(0)
    ensures r.Err? ==> v.JNumber?
  {
    match v
    case JString(s) =>
      (match Numbers.TryParseInt32(s)
       case Some(n) => Ok(n)
       case None => Ok(0))
    case JNumber(literal) => GetInt32(literal)
    case _ => Ok(0)
  }

  /** `RequiredAgeConverter.Write`: always a number. */
  function WriteRequiredAge(n: Numbers.Int32): (v: Json)
    ensures v.JNumber?
  {
    NumberOf(n)
  }

  /** Writing and reading back gives the same age. */
  lemma ReadWriteRequiredAge(n: Numbers.Int32)
    ensures ReadRequiredAge(WriteRequiredAge(n)) == Ok(n)
  {
    GetInt32OfWritten(n);
  }

  /** An age written as a string or as a number reads the same: `"17"` and
      `17` both give 17. */
  lemma StringOrNumberAge(n: Numbers.Int32)
    ensures ReadRequiredAge(JString(Numbers.IntToString(n))) == Ok(n)
    ensures ReadRequiredAge(JNumber(Numbers.IntToString(n))) == Ok(n)
  {
    Numbers.ParseFormatted(n);
    GetInt32OfWritten(n);
  }

  /** A string that is not a number reads as 0 rather than failing. */
  lemma UnparsableAgeIsZero(s: string)
    requires Numbers.TryParseInt32(s).None?
    ensures ReadRequiredAge(JString(s)) == Ok(0)
  {
  }
}

=== FILE: text.dfy ===
/** The .NET string operations the gateway relies on: `Char.IsWhiteSpace`,
    `Trim`, `TrimEnd(char)`, `Split(char)` with and without
    `RemoveEmptyEntries`, `string.Join`, ASCII `ToLower` and `StartsWith`. */
module Text {

  /** `Char.IsWhiteSpace`: the Unicode space, line and paragraph separators
      plus the control characters U+0009..U+000D and U+0085. */
  predicate IsWhiteSpace(c: char) {
    || ('\U{0009}' <= c <= '\U{000D}')
    || c == ' ' || c == '\U{0085}' || c == '\U{00A0}' || c == '\U{1680}'
    || ('\U{2000}' <= c <= '\U{200A}')
    || c == '\U{2028}' || c == '\U{2029}' || c == '\U{202F}' || c == '\U{205F}' || c == '\U{3000}'
  }

  /** `string.IsNullOrWhiteSpace` (a null string is modelled as the empty one). */
  predicate IsBlank(s: string)
    ensures s == [] ==> IsBlank(s)
    ensures IsBlank(s) <==> SkipForward(s, IsWhiteSpace, 0) == |s|
  {
    forall i :: 0 <= i < |s| ==> IsWhiteSpace(s[i])
  }

  /** Removes every trailing character satisfying `p`. */
  function TrimEndWhere(s: string, p: char -> bool): (r: string)
    ensures |r| <= |s| && r == s[..|r|]
    ensures |r| == 0 || !p(r[|r| - 1])
    ensures forall i :: |r| <= i < |s| ==> p(s[i])
    decreases |s|
  {
    if |s| > 0 && p(s[|s| - 1]) then TrimEndWhere(s[..|s| - 1], p) else s
  }

  /** `s.TrimEnd(c)`: a prefix of `s` that does not end in `c`, and only
      copies of `c` were removed. */
  function TrimEnd(s: string, c: char): (r: string)
    ensures |r| <= |s| && r == s[..|r|]
    ensures |r| == 0 || r[|r| - 1] != c
    ensures forall i :: |r| <= i < |s| ==> s[i] == c
  {
    TrimEndWhere(s, x => x == c)
  }

  /** `s.Trim()`: the slice of `s` left once the white space before and
      after it is dropped, so the result is empty exactly for a blank string
      and otherwise starts and ends with a character that is not white
      space. */
  function Trim(s: string): (r: string)
    ensures |r| <= |s|
    ensures exists a, b :: 0 <= a <= b <= |s| && r == s[a..b]
                           && (forall i :: 0 <= i < a ==> IsWhiteSpace(s[i]))
                           && (forall i :: b <= i < |s| ==> IsWhiteSpace(s[i]))
    ensures r == [] <==> IsBlank(s)
    ensures r == [] || (!IsWhiteSpace(r[0]) && !IsWhiteSpace(r[|r| - 1]))
  {
    TrimWhere(s, IsWhiteSpace)
  }

  /** The first index at or after `i` whose character does not satisfy
      `p`, or `|s|` when there is none. */
  function SkipForward(s: string, p: char -> bool, i: nat): (n: nat)
    requires i <= |s|
    ensures i <= n <= |s|
    ensures forall k :: i <= k < n ==> p(s[k])
    ensures n == |s| || !p(s[n])
    decreases |s| - i
  {
    if i < |s| && p(s[i]) then SkipForward(s, p, i + 1) else i
  }

  /** Walking back from `j`, the smallest index down to `lo` such that every
      character from it up to `j` satisfies `p`. */
  function SkipBackward(s: string, p: char -> bool, lo: nat, j: nat): (n: nat)
    requires lo <= j <= |s|
    ensures lo <= n <= j
    ensures forall k :: n <= k < j ==> p(s[k])
    ensures n == lo || !p(s[n - 1])
    decreases j
  {
    if j > lo && p(s[j - 1]) then SkipBackward(s, p, lo, j - 1) else j
  }

  /** Drops the characters satisfying `p` from both ends of `s`. */
  function TrimWhere(s: string, p: char -> bool): (r: string)
    ensures |r| <= |s|
    ensures exists a, b :: 0 <= a <= b <= |s| && r == s[a..b]
                           && (forall i :: 0 <= i < a ==> p(s[i]))
                           && (forall i :: b <= i < |s| ==> p(s[i]))
    ensures r == [] <==> forall i :: 0 <= i < |s| ==> p(s[i])
    ensures |r| > 0 ==> !p(r[0]) && !p(r[|r| - 1])
  {
    var a := SkipForward(s, p, 0);
    var b := SkipBackward(s, p, a, |s|);
    assert a < |s| ==> !p(s[a]);
    s[a..b]
  }

  /** Text that neither starts nor ends with white space trims to itself. */
  lemma TrimOfNonWhite(s: string)
    requires s == [] || (!IsWhiteSpace(s[0]) && !IsWhiteSpace(s[|s| - 1]))
    ensures Trim(s) == s
  {
  }

  /** `string.Join(sep, xs)`. */
  function Join(xs: seq<string>, sep: string): string
    decreases |xs|
  {
    if |xs| == 0 then ""
    else if |xs| == 1 then xs[0]
    else xs[0] + sep + Join(xs[1..], sep)
  }

  /** A join of three pieces written out in full. */
  lemma JoinOfThree(a: string, b: string, c: string, sep: string)
    ensures Join([a, b, c], sep) == a + sep + (b + sep + c)
  {
    var xs := [a, b, c];
    assert xs[1..] == [b, c] && xs[1..][1..] == [c];
    assert Join([c], sep) == c;
    assert Join([b, c], sep) == b + sep + c;
  }

  /** `s.Split(c)`: the pieces between occurrences of `c`, so that joining
      them back with `c` gives `s`; there is always at least one piece. */
  function Split(s: string, c: char): (r: seq<string>)
    ensures |r| >= 1
    ensures forall i :: 0 <= i < |r| ==> c !in r[i]
    ensures Join(r, [c]) == s
    decreases |s|
  {
    if s == [] then [""]
    else
      var rest := Split(s[1..], c);
      if s[0] == c then
        assert Join([""] + rest, [c]) == [c] + Join(rest, [c]) by {
          assert ([""] + rest)[1..] == rest;
        }
        [""] + rest
      else
        var r := [[s[0]] + rest[0]] + rest[1..];
        assert Join(r, [c]) == [s[0]] + Join(rest, [c]) by {
          if |rest| > 1 {
            assert r[1..] == rest[1..];
          }
        }
        assert s == [s[0]] + s[1..];
        r
  }

  /** The elements of `xs` that are not empty, in order. */
  function RemoveEmpty(xs: seq<string>): (r: seq<string>)
    ensures forall i :: 0 <= i < |r| ==> r[i] != ""
    ensures forall x :: x in r <==> x in xs && x != ""
    ensures |r| <= |xs|
  {
    if xs == [] then []
    else if xs[0] == "" then RemoveEmpty(xs[1..])
    else [xs[0]] + RemoveEmpty(xs[1..])
  }

  /** `s.Split(c, StringSplitOptions.RemoveEmptyEntries)`. */
  function SplitRemoveEmpty(s: string, c: char): (r: seq<string>)
    ensures forall i :: 0 <= i < |r| ==> r[i] != "" && c !in r[i]
    ensures forall x :: x in r <==> x in Split(s, c) && x != ""
    ensures c !in s && s != "" ==> r == [s]
    ensures (forall i :: 0 <= i < |s| ==> s[i] == c) ==> r == []
  {
    var pieces := Split(s, c);
    var r := RemoveEmpty(pieces);
    assert forall i :: 0 <= i < |r| ==> c !in r[i] by {
      forall i | 0 <= i < |r| ensures c !in r[i] {
        assert r[i] in pieces;
      }
    }
    assert c !in s && s != "" ==> r == [s] by {
      if c !in s && s != "" {
        SplitWithoutSeparator(s, c);
        assert [s][1..] == [];
      }
    }
    assert (forall i :: 0 <= i < |s| ==> s[i] == c) ==> r == [] by {
      if forall i :: 0 <= i < |s| ==> s[i] == c {
        AllPiecesEmpty(s, c);
        RemoveEmptyOfEmpties(pieces);
      }
    }
    r
  }

  /** Ordinal ASCII lower-casing of one character. */
  function LowerChar(c: char): char {
    if 'A' <= c <= 'Z' then (c as int + 32) as char else c
  }

  /** `ToLower()` over ASCII letters; every other character is kept. */
  function Lower(s: string): (r: string)
    ensures |r| == |s|
    ensures forall i :: 0 <= i < |s| ==> r[i] == LowerChar(s[i])
  {
    seq(|s|, i requires 0 <= i < |s| => LowerChar(s[i]))
  }

  /** `b.ToString().ToLower()`. */
  function BoolText(b: bool): string {
    if b then "true" else "false"
  }

  /** `s.StartsWith(prefix)`. */
  predicate StartsWith(s: string, prefix: string) {
    |prefix| <= |s| && s[..|prefix|] == prefix
  }

  // ---------------------------------------------------------------------
  // Splitting undoes joining.

  lemma {:induction false} SplitWithoutSeparator(a: string, c: char)
    requires c !in a
    ensures Split(a, c) == [a]
    decreases |a|
  {
    if a != [] {
      SplitWithoutSeparator(a[1..], c);
    }
  }

  lemma {:induction false} SplitAtSeparator(a: string, b: string, c: char)
    requires c !in a
    ensures Split(a + [c] + b, c) == [a] + Split(b, c)
    decreases |a|
  {
    var s := a + [c] + b;
    if a == [] {
      assert s[1..] == b;
    } else {
      assert s[1..] == a[1..] + [c] + b;
      SplitAtSeparator(a[1..], b, c);
      assert [a[0]] + a[1..] == a;
    }
  }

  /** Splitting a join of separator-free pieces gives back exactly those pieces. */
  lemma {:induction false} SplitJoin(xs: seq<string>, c: char)
    requires |xs| >= 1
    requires forall i :: 0 <= i < |xs| ==> c !in xs[i]
    ensures Split(Join(xs, [c]), c) == xs
    decreases |xs|
  {
    if |xs| == 1 {
      SplitWithoutSeparator(xs[0], c);
    } else {
      SplitJoin(xs[1..], c);
      SplitAtSeparator(xs[0], Join(xs[1..], [c]), c);
      assert [xs[0]] + xs[1..] == xs;
    }
  }

  /** A string made only of separators splits into empty pieces only, so
      dropping empty entries leaves nothing. */
  lemma {:induction false} OnlySeparatorsSplitToNothing(s: string, c: char)
    requires forall i :: 0 <= i < |s| ==> s[i] == c
    ensures SplitRemoveEmpty(s, c) == []
  {
    AllPiecesEmpty(s, c);
    RemoveEmptyOfEmpties(Split(s, c));
  }

  /** Dropping empty entries works entry by entry: on a concatenation it
      drops them from each part and keeps the parts in order. */
  lemma {:induction false} RemoveEmptyAppend(a: seq<string>, b: seq<string>)
    ensures RemoveEmpty(a + b) == RemoveEmpty(a) + RemoveEmpty(b)
    decreases |a|
  {
    if a == [] {
      assert a + b == b;
    } else {
      assert (a + b)[1..] == a[1..] + b;
      RemoveEmptyAppend(a[1..], b);
    }
  }

  /** Dropping empty entries keeps a list of non-empty strings as it is. */
  lemma {:induction false} RemoveEmptyOfNonEmpty(xs: seq<string>)
    requires forall i :: 0 <= i < |xs| ==> xs[i] != ""
    ensures RemoveEmpty(xs) == xs
  {
    if xs != [] {
      RemoveEmptyOfNonEmpty(xs[1..]);
      assert [xs[0]] + xs[1..] == xs;
    }
  }

  /** A comma-joined list of non-empty, comma-free entries splits back into
      exactly those entries, with or without `RemoveEmptyEntries`. */
  lemma SplitRemoveEmptyJoin(xs: seq<string>, c: char)
    requires |xs| >= 1
    requires forall i :: 0 <= i < |xs| ==> xs[i] != "" && c !in xs[i]
    ensures SplitRemoveEmpty(Join(xs, [c]), c) == xs
  {
    SplitJoin(xs, c);
    RemoveEmptyOfNonEmpty(xs);
  }

  lemma {:induction false} RemoveEmptyOfEmpties(xs: seq<string>)
    requires forall i :: 0 <= i < |xs| ==> xs[i] == ""
    ensures RemoveEmpty(xs) == []
  {
    if xs != [] {
      RemoveEmptyOfEmpties(xs[1..]);
    }
  }

  lemma {:induction false} AllPiecesEmpty(s: string, c: char)
    requires forall i :: 0 <= i < |s| ==> s[i] == c
    ensures forall i :: 0 <= i < |Split(s, c)| ==> Split(s, c)[i] == ""
    decreases |s|
  {
    if s != [] {
      AllPiecesEmpty(s[1..], c);
    }
  }
}

=== FILE: wrappers.dfy ===
/** Optional values and results, standing in for the source's nullable
    references and thrown exceptions. */
module Wrappers {

  /** A value that may be absent (a C# `null`). */
  datatype Option<+T> = None | Some(value: T) {

    /** The carried value, or `default` when absent. */
    function GetOr(default: T): T {
      match this
      case Some(v) => v
      case None => default
    }
  }

  /** A decode that either produced a value or raised an error. */
  datatype Result<+R, +E> = Ok(value: R) | Err(error: E)
}
